=== FILE: README.md ===
# Netlify deploy tool for Sanity Studio — a Dafny model

This project models the logic at the core of a Sanity Studio tool for Netlify
deploys. The tool keeps a list of "projects", stored as `webhook_deploy`
documents. Each project names a Netlify site, a build hook, an optional
branch and an access token.

The tool's screen does four things, and the model covers each:

- It keeps its project list in step with the store's listen events: create,
  patch and delete mutations. See `ProjectList`.
- It creates a project from a form and opens an edit form for an existing
  one. See `CreateForm` and `EditForm`.
- Each project row polls the site's deploy list. From it, the row keeps a
  status, a deploying flag, a loading flag and a stored poll error. The
  row's buttons depend on these. See `DeployItem`.
- A status badge chooses a label, tone, mode and warning icon from a deploy
  state and its error message (`DeployStatus`). A history dialog shows one
  row per deploy (`DeployHistory`).

The modules:

| module | file | contents |
|---|---|---|
| `Wrappers` | wrappers.dfy | `Option` and `Result` |
| `Text` | text.dfy | ASCII upper-casing, `indexOf`, `substring(0, n)`, decimal rendering and parsing |
| `Records` | records.dfy | the stored project, the provider's deploy record, the form's pending values |
| `Api` | api.dfy | the deploy-list request, the build-hook body, the cancel URL |
| `DeployStatus` | deploy_status.dfy | the status badge |
| `ProjectList` | project_list.dfy | the listen reconciler |
| `CreateForm` | create_form.dfy | the create dialog and the new document |
| `EditForm` | edit_form.dfy | the edit dialog, its patch and the store's `set` |
| `DeployItem` | deploy_item.dfy | the project row: its state machine, controls and badges |
| `DeployHistory` | deploy_history.dfy | the history dialog |

Modelling conventions:

- An absent optional text field (`error_message`, `commit_url`, `branch`) is
  the empty string. JavaScript's truthiness treats both alike, so the code
  cannot tell them apart either.
- An absent `deploy_time` is `0`.
- React state updates are values. The row's two effects become functions.
  React re-runs an effect only when one of its dependencies changed, and
  the model keeps that for both:
  - The effect on new deploy data is the `PollSucceeded` case of
    `DeployItem.Handle`. The poller deep-compares a refreshed list with the
    one it holds and keeps the old one when they are equal. The comparison
    covers the provider's whole record, so `Deployment.others` carries the
    fields the plugin does not read (`updated_at`, `links`, …). The row
    records the last delivered list (`ItemState.data`), and a refresh equal
    to it changes nothing (`DeployItem.UnchangedRefreshNoop`) while the
    poll key is unchanged. The poller is keyed by the site id, the token
    and the production flag. The row stays mounted when an edit changes
    one of them, and the poller then forgets its list (the `PollKeyChanged`
    event, `DeployItem.KeyChangeForgetsList`).
  - The effect on `status` is `DeployItem.React`. `DeployItem.Step` runs it
    only when an event changed the status.
- The row's status badge and branch badge (`DeployItem.ItemBadge`,
  `DeployItem.BranchBadge`) are functions of the held list and the stored
  poll error.
- A listen event is applied as one function, in the code's own order:
  create, then patch, then delete. Each `setDeploys` updater sees the
  previous one's result, and the model keeps that.
- The generated part of a new document id is a parameter (`generated`).
  It is not a random value.

Behaviour worth knowing:

- Creating a project appends the store's result without checking for an
  existing id, so a repeated create event duplicates the entry
  (`ProjectList.CreateNotIdempotent`). Create is not idempotent.
- Listen events for different documents commute only up to order. The
  multiset of projects is the same either way. The list is the same exactly
  when at most one of the two events appends (`ProjectList.DisjointEventsCommute`).
- The status is an open string: whatever the provider reports, upper-cased.
  It is not a closed enumeration. Unknown statuses get the default tone and
  mode and leave the deploying flag alone.
- A successful poll does not clear a stored poll error
  (`DeployItem.PollSucceededEffect`). The row badge prefers that stored
  error's text over the newest deploy's own message.
- Right after Deploy, Cancel targets the newest deploy of the held list,
  which is the previous deploy, until a list holding the new one arrives.
  The corrected cancel request only guards against a missing or empty
  list; it keeps that window (`DeployItem.CancelTargetsPreviousDeploy`).
- The row badge is computed from the last delivered deploy list, not from
  the row's `status`. So a build the provider reports as state `error`
  with message "Canceled build" sets `status` to ERROR while the badge
  reads CANCELED (`DeployItem.CanceledBuildStatusDiffersFromBadge`).

## Model

| member | source | states |
|---|---|---|
| Text.ToUpper | src/deploy-status.tsx:39 | Upper-casing keeps the length, leaves no lower-case ASCII letter, and changes each character only to its upper-case letter |
| Text.ToUpperIdempotent | src/deploy-status.tsx:39 | Upper-casing an upper-cased label changes nothing |
| Text.IndexOf | src/deploy-status.tsx:30-32 | `indexOf` returns the first position where the pattern occurs, or -1 exactly when it occurs nowhere |
| Text.Take | src/deploy-history.tsx:145 | `substring(0, 7)` yields a prefix of length min(7, length) |
| Text.NatToString | src/deploy-history.tsx:66 | A rendered number is a non-empty run of digits without a leading zero |
| Text.ParseNatToString | src/deploy-history.tsx:66 | Reading a rendered number back gives the number |
| Text.NatToStringInjective | src/deploy-history.tsx:66 | Different numbers render differently |
| Api.DeploysRequest | src/deploy-item.tsx:89-96 | The deploy-list request sends `production=true` exactly when only production deploys are wanted, sends no other parameter, and its URL is the sites prefix, the site id and `/deploys` |
| Api.DeploysRequestInjective | src/deploy-item.tsx:89-96 | Different sites or filter choices give different requests |
| Api.DeployBody | src/deploy-item.tsx:115-116 | The build-hook body carries `trigger_branch` exactly when the project has a branch, and carries that branch |
| Api.CancelUrl | src/deploy-item.tsx:140 | The cancel URL is the deploys prefix, the deploy id and `/cancel` |
| Api.CancelUrlInjective | src/deploy-item.tsx:140 | Different deploys have different cancel URLs |
| DeployStatus.Label | src/deploy-status.tsx:29-39 | The badge label has no lower-case letter and is as long as the chosen status |
| DeployStatus.GetStatus | src/deploy-status.tsx:29-37 | Chooses the status the badge shows from the state and the message; CanceledOverride, SkippedOverride and RawStateLabel state its three cases and their precedence |
| DeployStatus.ShowWarning | src/deploy-status.tsx:69 | The warning-icon test on the label and message; WarningIff states it over the raw state and message |
| DeployStatus.Present | src/deploy-status.tsx:39-69 | Builds the badge from a state and message; ToneOf, ModeOf and WarningIff state its parts and ReadyIsPositive is an instance |
| DeployStatus.CanceledOverride | src/deploy-status.tsx:30-31 | An error message containing "Canceled build" makes the label CANCELED, whatever the state |
| DeployStatus.SkippedOverride | src/deploy-status.tsx:32-33 | Otherwise, a message containing "Skipped" makes the label SKIPPED |
| DeployStatus.RawStateLabel | src/deploy-status.tsx:34-39 | With neither marker in the message, the label is the upper-cased state |
| DeployStatus.EmptyMessageLabel | src/deploy-status.tsx:29-39 | Without an error message, the label is the upper-cased state |
| DeployStatus.LabelCanceledIff | src/deploy-status.tsx:29-39 | The label is CANCELED exactly when the message contains "Canceled build", or contains neither marker and the state upper-cases to CANCELED |
| DeployStatus.ToneOf | src/deploy-status.tsx:41-53 | The tone is critical exactly for ERROR, positive exactly for READY, caution exactly for BUILDING, PREPARING and PROCESSING, and default for every other label |
| DeployStatus.ModeOf | src/deploy-status.tsx:55-61 | The mode is outline exactly for LOADING, READY, SKIPPED and CANCELED |
| DeployStatus.WarningIff | src/deploy-status.tsx:69 | The warning icon shows exactly when there is an error message and the label is neither CANCELED nor SKIPPED |
| DeployStatus.ReadyIsPositive | src/deploy-status.tsx:49 | A ready deploy without a message shows a positive badge |
| ProjectList.HasKind | src/netlify.tsx:93-103 | An event has a mutation kind exactly when some mutation in it carries that key |
| ProjectList.Create | src/netlify.tsx:113-119 | A create appends the result at the end and keeps the earlier entries; without a result the list is unchanged |
| ProjectList.Replace | src/netlify.tsx:108-111 | A patch replaces every entry with the document's id by the result, in place, and keeps the rest |
| ProjectList.Delete | src/netlify.tsx:105-106 | A delete keeps exactly the entries with another id, with their multiplicities |
| ProjectList.Patch | src/netlify.tsx:108-111 | A patch without a result fails exactly when the document is in the list; otherwise it is a replace, or nothing without a result |
| ProjectList.ApplyEvent | src/netlify.tsx:92-130 | Folds one listen event into the list in the order create, patch, delete; OtherEventNoop, ApplySplits, DeleteRunsLast, ResultNeverFaults and DisjointEventsCommute state what it does |
| ProjectList.ReplaceAbsent | src/netlify.tsx:108-111 | Patching a document that is not in the list changes nothing |
| ProjectList.DeleteAbsent | src/netlify.tsx:128-129 | Deleting a document that is not in the list changes nothing |
| ProjectList.DeleteRemovesAll | src/netlify.tsx:128-129 | After a delete, no entry has the deleted id |
| ProjectList.DeleteConcat | src/netlify.tsx:128-129 | Deleting from a joined list is deleting from each part |
| ProjectList.CreateTwice | src/netlify.tsx:113-119 | A repeated create adds two entries with the id |
| ProjectList.CreateNotIdempotent | src/netlify.tsx:113-119 | A create replayed for a new document leaves two copies and a different list |
| ProjectList.OtherEventNoop | src/netlify.tsx:92 | Events other than mutations leave the list alone |
| ProjectList.CreateEvent | src/netlify.tsx:113-119 | A create-only event appends its result, or does nothing without one |
| ProjectList.PatchEvent | src/netlify.tsx:121-127 | A patch-only event replaces the document in place |
| ProjectList.DeleteEvent | src/netlify.tsx:128-130 | A delete-only event removes the document, and does nothing when it is absent |
| ProjectList.DeleteRunsLast | src/netlify.tsx:113-130 | When an event holds a delete and applies, the document is absent afterwards, whatever create or patch came with it |
| ProjectList.ResultNeverFaults | src/netlify.tsx:108-130 | An event that carries its result never fails |
| ProjectList.PatchWithoutResult | src/netlify.tsx:108-111 | A patch event without a result fails exactly when the document is listed |
| ProjectList.RenameScenario | src/netlify.tsx:121-126 | Renaming the only project through a patch event gives the renamed project |
| ProjectList.ApplySplits | src/netlify.tsx:113-130 | An event with a result is an in-place part applied to every entry followed by an appended tail |
| ProjectList.InPlaceCommute | src/netlify.tsx:105-111 | The in-place parts of two events for different documents commute |
| ProjectList.DisjointEventsCommute | src/netlify.tsx:92-130 | Two events for different documents, each carrying its document, give the same multiset in either order, and the same list when at most one of them appends |
| ProjectList.DeleteCommutesWithOtherEvent | src/netlify.tsx:105-130 | A delete sent without its document and an event for another document give the same list in either order |
| CreateForm.NewDocumentFor | src/netlify.tsx:53-67 | The new document has type `webhook_deploy`, an id `netlify.` followed by the generated part, and the form's seven values |
| CreateForm.NewDocumentIdsDistinct | src/netlify.tsx:58 | Different generated parts give different document ids |
| CreateForm.CanSubmit | src/netlify.tsx:333-339 | The Create gating; SubmittedDocumentComplete states that an enabled button means name, site id, build hook and token are set, and ResetDialogDisabled that the reset form is disabled |
| CreateForm.SubmittedDocumentComplete | src/netlify.tsx:333-339 | A document the enabled Create button sends has a name, site id, build hook and token |
| CreateForm.ClickCreateAsWritten | src/netlify.tsx:53-78 | The Create click sends a document exactly when the button is enabled, and leaves the dialog as it was |
| CreateForm.DoubleCreateAsWritten | src/netlify.tsx:53-78 | As written, a second click before the store answers sends a second document with another id |
| CreateForm.ClickCreate | src/netlify.tsx:53-78 | The corrected click sends the same document and marks the dialog as submitting |
| CreateForm.SingleCreate | src/netlify.tsx:331-339 | With the corrected click, a second click sends nothing |
| CreateForm.ResetDialogDisabled | src/netlify.tsx:30-38 | After a confirmed create, the reset form cannot be submitted |
| EditForm.EditValues | src/deploy-item.tsx:166-177 | The edit form starts from the project's values with an empty token |
| EditForm.EditPatch | src/deploy-item.tsx:179-191 | The patch sets the six always-present fields, and the token exactly when one was typed |
| EditForm.ApplySet | src/deploy-item.tsx:193-196 | The store's `set`: fields in the patch replace the project's, the rest stay; EditResult and UnchangedEditIsNoop state its effect for the edit patch |
| EditForm.CanSubmitEdit | src/deploy-item.tsx:417-422 | The Update gating, which needs no token; OpenedDialogSubmittable states that the form opened on a stored project is enabled |
| EditForm.EditResult | src/deploy-item.tsx:179-196 | After the patch, the project keeps its id, has the form's values, and keeps the old token unless a new one was typed |
| EditForm.UnchangedEditIsNoop | src/deploy-item.tsx:166-196 | Submitting the form unchanged gives back the same project, token included |
| EditForm.OpenedDialogSubmittable | src/deploy-item.tsx:417-422 | The form opened on a stored project can be submitted |
| EditForm.ClickUpdateAsWritten | src/deploy-item.tsx:179-207 | The Update click sends the patch exactly when the button is enabled, and leaves the dialog as it was |
| EditForm.DoubleUpdateAsWritten | src/deploy-item.tsx:179-207 | As written, a second click before the store answers sends the patch again |
| EditForm.ClickUpdate | src/deploy-item.tsx:179-207 | The corrected click sends the same patch and marks the dialog as submitting |
| EditForm.SingleUpdate | src/deploy-item.tsx:415-422 | With the corrected click, a second click sends nothing |
| EditForm.EditRoundTrip | src/deploy-item.tsx:166-196 | Opening the edit form and submitting it unchanged sends a patch that leaves the project as it was; the confirmation closes the dialog |
| DeployItem.LatestStatus | src/deploy-item.tsx:213-216 | The status is the newest deploy's state upper-cased, or READY for an empty list or an empty state |
| DeployItem.PollErrorMessage | src/deploy-item.tsx:103 | The stored error is the provider's message, else the failure's message, else "Something went wrong!"; it is never empty |
| DeployItem.Handle | src/deploy-item.tsx:89-220 | The writes of each event's handler and of the new-data effect; the PollSucceededEffect, PollFailedEffect, DeployClickedEffect, DeployRejectedKeepsEnqueued, CancelSucceededEffect, RemoveLocksRow and KeyChangeForgetsList lemmas state each case |
| DeployItem.React | src/deploy-item.tsx:229-238 | The status effect; StepReaction states when it runs and what it does to the deploying flag |
| DeployItem.Step | src/deploy-item.tsx:210-243 | One event: the handler, then the status effect if the status moved; StepReaction and DataOnlyFromPolls state it |
| DeployItem.Run | src/deploy-item.tsx:74-243 | A sequence of events from a state; ReachableValid states the invariant of every run from the initial state |
| DeployItem.CanDeploy | src/deploy-item.tsx:331 | The Deploy button's enabling; CancelExcludesDeploy, DeployClickedEffect and CancelSucceededEffect state it in use |
| DeployItem.CancelOffered | src/deploy-item.tsx:340-341 | Cancel is shown while deploying in a cancelable status; CancelExcludesDeploy and DeployRejectedKeepsEnqueued state it in use |
| DeployItem.StepReaction | src/deploy-item.tsx:228-238 | A status change to READY, ERROR or CANCELED clears the deploying flag, one to BUILDING or ENQUEUED sets it, and other statuses or an unchanged status leave it |
| DeployItem.DataOnlyFromPolls | src/deploy-item.tsx:89-107 | Only a successful refresh replaces the held deploy list, and only a change of the poll key forgets it |
| DeployItem.UnchangedRefreshNoop | src/deploy-item.tsx:210-226 | A refresh equal to the held list, under the same poll key, changes nothing |
| DeployItem.KeyChangeForgetsList | src/deploy-item.tsx:89-96 | An edit of the poll key forgets the held list and nothing else; after Deploy and such an edit, Cancel is shown with no target, and the same list arriving again replaces ENQUEUED by its newest status |
| DeployItem.OtherFieldChangeIsNewData | src/deploy-item.tsx:90-106 | A refresh in which only a field the row does not read changed is a new list: it is held, sets the status and ends loading |
| DeployItem.PollSucceededEffect | src/deploy-item.tsx:210-226 | A changed list is held, sets the status, ends loading, takes the newest creation time if there is one, and keeps the stored error; an unchanged list does nothing |
| DeployItem.PollSupersedes | src/deploy-item.tsx:213-220 | After a changed list, the status depends only on that list, not on the state before it |
| DeployItem.DeploySurvivesUnchangedRefresh | src/deploy-item.tsx:109-113 | After Deploy, a refresh of the held list keeps ENQUEUED, the deploying flag, Cancel offered and Deploy disabled |
| DeployItem.ErrorSurvivesUnchangedRefresh | src/deploy-item.tsx:101-105 | After a failed poll, a refresh of the held list keeps ERROR and the stored message |
| DeployItem.ChangedListShowsNewest | src/deploy-item.tsx:290-317 | After a changed, non-empty list and without a stored error, the row's status badge and branch badge show the newest deploy |
| DeployItem.PollFailedEffect | src/deploy-item.tsx:101-105 | A failed poll sets ERROR, stores the chosen message, ends loading and keeps the held list; if the status was not already ERROR, it also clears the deploying flag |
| DeployItem.DeployClickedEffect | src/deploy-item.tsx:109-113 | Deploy sets ENQUEUED and the deploying flag, clears the timestamp and build time, offers Cancel and disables Deploy |
| DeployItem.DeployRejectedKeepsEnqueued | src/deploy-item.tsx:127-128 | A rejected build hook clears the deploying flag but leaves the status ENQUEUED |
| DeployItem.CancelSucceededEffect | src/deploy-item.tsx:137-153 | A confirmed cancel sets CANCELED, clears the deploying and loading flags and the build time, records the update time, and enables Deploy again |
| DeployItem.RemoveLocksRow | src/deploy-item.tsx:156-157 | Delete locks the row's menu and Deploy button and keeps the status and deploying flag; a refresh with a changed list unlocks the menu, and one with the held list does not |
| DeployItem.CancelExcludesDeploy | src/deploy-item.tsx:331-341 | When Cancel is shown, Deploy is disabled |
| DeployItem.RowControls | src/deploy-item.tsx:328-387 | Cancel shown implies Deploy disabled and a cancelable status; an enabled Deploy implies an enabled menu; History is enabled exactly for a non-empty held list; Delete is shown exactly unless the project disables it |
| DeployItem.CancelTargetAsWritten | src/deploy-item.tsx:345-347 | As written, the Cancel click's target read fails exactly when no non-empty list is held; otherwise it is the newest deploy's id |
| DeployItem.CancelTarget | src/deploy-item.tsx:345-347 | The corrected target: the newest deploy's id when a non-empty list is held, else none |
| DeployItem.CancelRequest | src/deploy-item.tsx:136-145 | With the corrected target, a click sends a cancel URL exactly when Cancel is shown and a deploy is known, for the newest deploy |
| DeployItem.CancelOfferedWithoutList | src/deploy-item.tsx:340-347 | After a failed first poll and Deploy, Cancel is shown while no list is held; the written target read fails and the corrected click sends nothing |
| DeployItem.CancelTargetAgrees | src/deploy-item.tsx:346 | Wherever the written target can be read, the corrected one is the same id |
| DeployItem.CancelTargetsPreviousDeploy | src/deploy-item.tsx:340-347 | Right after Deploy, with a non-empty list held, a click sends the cancel for the newest deploy of that list |
| DeployItem.BuildingBuildingReady | src/deploy-item.tsx:213-237 | Refreshes reporting building, building, ready give BUILDING, BUILDING, READY with the deploying flag on, on, off; the repeated list changes nothing |
| DeployItem.CanceledBuildStatusDiffersFromBadge | src/deploy-item.tsx:216 | A canceled build reported as `error` gives status ERROR while the badge reads CANCELED |
| DeployItem.ItemBadge | src/deploy-item.tsx:315-317 | A stored poll error replaces the newest deploy's message on the badge, so it can turn the label into CANCELED or SKIPPED; without one the badge shows the newest deploy with its own message; an empty newest state, or no non-empty list, reads LOADING |
| DeployItem.ItemBadgeLoading | src/deploy-item.tsx:315 | Before a non-empty list arrives and without an error, the badge reads LOADING |
| DeployItem.ReachableValid | src/deploy-item.tsx:83-105 | Every reachable status is a non-empty word without lower-case letters, and a stored error is never empty |
| DeployItem.BranchBadgeAsWritten | src/deploy-item.tsx:290 | As written, the branch badge fails exactly for an arrived but empty deploy list |
| DeployItem.BranchBadgeEmptyListFails | src/deploy-item.tsx:290 | A site without deploys breaks the written badge; the corrected badge shows a dash |
| DeployItem.BranchBadge | src/deploy-item.tsx:290 | The corrected badge shows the newest deploy's branch when there is one, else a dash |
| DeployItem.BranchBadgeAgrees | src/deploy-item.tsx:290 | Wherever the written badge works, the corrected one shows the same text |
| DeployHistory.HistoryRequest | src/deploy-history.tsx:37-50 | The history request asks for production deploys exactly when the project says so, and sends no other parameter |
| DeployHistory.SplitDeployTime | src/deploy-history.tsx:63-65 | A duration splits into whole minutes and fewer than 60 remaining seconds that add back up to it |
| DeployHistory.FormatDeployTime | src/deploy-history.tsx:63-67 | Renders a duration as "{m}m {s}s"; FormatParseRoundTrip and FormatDeployTimeInjective state its meaning |
| DeployHistory.FormatParseRoundTrip | src/deploy-history.tsx:63-67 | The rendered "{m}m {s}s" text reads back as the duration |
| DeployHistory.FormatDeployTimeInjective | src/deploy-history.tsx:63-67 | Different durations render differently |
| DeployHistory.CommitCellOf | src/deploy-history.tsx:138-148 | The commit cell is a link exactly when there is a commit URL, labelled with the first seven characters of the commit ref |
| DeployHistory.DurationCell | src/deploy-history.tsx:155-159 | A zero or missing deploy time shows a dash; any other shows text that reads back as the time |
| DeployHistory.DurationCellIff | src/deploy-history.tsx:155-159 | The duration cell is a dash exactly when there is no deploy time |
| DeployHistory.PermalinkOf | src/deploy-history.tsx:179-189 | The permalink button appears exactly for state `ready` and links to the deploy's permalink |
| DeployHistory.RowOf | src/deploy-history.tsx:113-193 | The cells of one history row; CommitCellOf, DurationCell and PermalinkOf state each computed cell, and the badge is DeployStatus.Present of the deploy's state and message |
| DeployHistory.UpperReadyHasNoPermalink | src/deploy-history.tsx:180 | The comparison is case-sensitive: state READY gets no permalink |
| DeployHistory.Rows | src/deploy-history.tsx:113-193 | The table has one row per deploy, in the provider's order |
| DeployHistory.View | src/deploy-history.tsx:69-113 | The spinner shows exactly while loading, the error card exactly when not loading after a failure, and otherwise a table with one row per deploy |
| DeployHistory.StartFetch | src/deploy-history.tsx:34-35 | Starting a fetch sets loading; LoadingFirst states the spinner shows |
| DeployHistory.FetchSucceeded | src/deploy-history.tsx:51-55 | A success stores the list and clears loading and error; SuccessShowsTable states the table shows |
| DeployHistory.FetchFailed | src/deploy-history.tsx:56-60 | A failure clears loading and sets the error; FailureShowsError states the card shows |
| DeployHistory.LoadingFirst | src/deploy-history.tsx:34-35 | While a fetch is outstanding the spinner shows, even over an earlier failure |
| DeployHistory.SuccessShowsTable | src/deploy-history.tsx:51-55 | A successful fetch shows one row per delivered deploy and forgets an earlier failure |
| DeployHistory.FailureShowsError | src/deploy-history.tsx:56-58 | A failed fetch shows the "could not load" card for the site |
| DeployHistory.DialogOpensLoading | src/deploy-history.tsx:30-60 | The dialog opens on the spinner; its first answer shows the table of the delivered deploys or the error card |

## Left out

- HTTP, the store and the clock are not modelled. That covers axios, the SWR
  poller with its one-second interval and three retries, the Sanity client's
  fetch, listen, create, patch and delete, and toasts. Their outcomes are
  the events of `ProjectList`, `DeployItem` and `DeployHistory`.
- The order of the initial fetch and the listen subscription
  (src/netlify.tsx:81-136) is not modelled, nor the page's own loading flag.
  The reconciler is modelled from the list it is given.
- Rendering is not modelled: JSX layout, dialog open and close plumbing, and
  the form fields' change handlers. Their outcomes appear only as values
  such as `Badge`, `Row` and `HistoryView`.
- The build-time ticker and relative times (spacetime) are not modelled.
  This includes the row's time text (src/deploy-item.tsx:318-323) and the
  history's "deployed at" column. `buildTime` is only ever cleared in the
  model.
- The fields of a deploy record that the plugin does not read are kept as
  JSON text per field name (`Deployment.others`). Two texts for the same
  JSON value, with a different key order say, count as different here.
- The history effect re-runs on `[siteId, accessToken]`, not on the
  production flag (src/deploy-history.tsx:61). Effect scheduling is not
  modelled.
- `nanoid` becomes the `generated` parameter, so id collisions are the
  caller's choice.
- src/deploy-tool.tsx (the tool's registration) and src/v2-incompatible.js
  are not part of this model.
- Text.ToUpper: upper-cases ASCII letters only. JavaScript's `toUpperCase`
  also maps other Unicode letters, which provider states do not contain.
- DeployHistory.SplitDeployTime: `deploy_time` is a natural number. A
  negative or fractional time, which the provider does not send, would
  render differently under JavaScript's `Math.floor` and `%`.
- Text.NatToString: renders every natural number in plain digits.
  JavaScript prints numbers of 10^21 and more in exponent form; a deploy
  time that large is not modelled.
- ProjectList.Patch: a patch event without a result writes `undefined` into
  the list in the code. The model reports this as `Err(UndefinedEntry)` and
  does not model what later renders make of it.

## Findings

| source | as written | input that shows it | evidently intended | confidence | as-written member | corrected member |
|---|---|---|---|---|---|---|
| src/netlify.tsx:53-78 | `onSubmit` never sets `isSubmitting` to true, so the Create button's `loading`/`disabled` guard on it (331-334) never engages | two clicks on Create before the store answers | the first click marks the form as submitting, so the second sends nothing | medium, not executed | CreateForm.DoubleCreateAsWritten | CreateForm.SingleCreate |
| src/deploy-item.tsx:179-207 | `onSubmitEdit` never sets `isSubmitting` to true, so the Update button's guard on it (415-418) never engages | two clicks on Update before the store answers | the first click marks the form as submitting, so the second sends nothing | medium, not executed | EditForm.DoubleUpdateAsWritten | EditForm.SingleUpdate |
| src/deploy-item.tsx:290 | `deploymentData ? deploymentData[0].branch : '–'` reads `branch` of `undefined` when the delivered list is empty | a site with no deploys, so the poll delivers `[]` | show a dash, as the badge and History entry already do for an empty list | high, not executed | DeployItem.BranchBadgeEmptyListFails | DeployItem.BranchBadge |
| src/deploy-item.tsx:346 | the Cancel click reads `deploymentData[0].id`, but Cancel is shown on `isDeploying` and the status alone (340-341), so the list may be undefined or empty | a failed first poll, then Deploy: Cancel is shown while no list is held | send no cancel request when no deploy is known | high, not executed | DeployItem.CancelOfferedWithoutList | DeployItem.CancelRequest |

=== FILE: api.dfy ===
/**
 * The provider requests the plugin builds: the deploy-list request (used
 * both by the per-project poll and by the history dialog), the build-hook
 * POST body, and the cancel endpoint. Only their construction is modelled;
 * sending them is I/O.
 */
module Api {

  const ApiBase := "https://api.netlify.com/api/v1"
  const SitesPrefix := ApiBase + "/sites/"
  const DeploysSuffix := "/deploys"
  const DeploysPrefix := ApiBase + "/deploys/"
  const CancelSuffix := "/cancel"

  /** A GET request: its URL and its query parameters. */
  datatype Request = Request(url: string, params: map<string, string>)

  /** The list of a site's deploys, restricted to production deploys when
      the project asks for that. */
  function DeploysRequest(siteId: string, onlyShowProductionDeploys: bool): (r: Request)
    ensures "production" in r.params <==> onlyShowProductionDeploys
    ensures forall k :: k in r.params ==> k == "production" && r.params[k] == "true"
    ensures |r.url| == |SitesPrefix| + |siteId| + |DeploysSuffix|
    ensures r.url[..|SitesPrefix|] == SitesPrefix
    ensures r.url[|SitesPrefix|..|SitesPrefix| + |siteId|] == siteId
    ensures r.url[|SitesPrefix| + |siteId|..] == DeploysSuffix
  {
    var url := SitesPrefix + siteId + DeploysSuffix;
    var params := if onlyShowProductionDeploys then map["production" := "true"] else map[];
    Request(url, params)
  }

  /** Two deploy-list requests are equal exactly when they are for the same
      site with the same production filter. */
  lemma DeploysRequestInjective(a: string, pa: bool, b: string, pb: bool)
    requires DeploysRequest(a, pa) == DeploysRequest(b, pb)
    ensures a == b && pa == pb
  {
    var ra, rb := DeploysRequest(a, pa), DeploysRequest(b, pb);
    assert |a| == |b|;
    assert a == ra.url[|SitesPrefix|..|SitesPrefix| + |a|];
    assert pa <==> "production" in ra.params;
  }

  /** The body POSTed to a build hook: `trigger_branch` only for a branch
      override. */
  function DeployBody(branch: string): (body: map<string, string>)
    ensures "trigger_branch" in body <==> branch != ""
    ensures forall k :: k in body ==> k == "trigger_branch" && body[k] == branch
  {
    if branch != "" then map["trigger_branch" := branch] else map[]
  }

  /** The cancel endpoint of one deploy. */
  function CancelUrl(deployId: string): (url: string)
    ensures |url| == |DeploysPrefix| + |deployId| + |CancelSuffix|
    ensures url[..|DeploysPrefix|] == DeploysPrefix
    ensures url[|DeploysPrefix|..|DeploysPrefix| + |deployId|] == deployId
    ensures url[|DeploysPrefix| + |deployId|..] == CancelSuffix
  {
    DeploysPrefix + deployId + CancelSuffix
  }

  /** Each deploy has its own cancel endpoint: the URL determines the id. */
  lemma CancelUrlInjective(a: string, b: string)
    requires CancelUrl(a) == CancelUrl(b)
    ensures a == b
  {
    var ua := CancelUrl(a);
    assert |a| == |b|;
    assert a == ua[|DeploysPrefix|..|DeploysPrefix| + |a|];
  }
}

=== FILE: create_form.dfy ===
/**
 * The "New Project Deployment" dialog of the main page: when its Create
 * button is enabled, the document it sends to the store, and the dialog's
 * state around a submission.
 */
module CreateForm {
  import opened Wrappers
  import opened Records

  /** The document type of every deploy project. */
  const WebhookType := "webhook_deploy"

  /** Project ids live under this path so that they are not publicly readable. */
  const IdPrefix := "netlify."

  /** A document as handed to the store's create call. */
  datatype NewDocument = NewDocument(docType: string, record: Project)

  /** The Create button is enabled. */
  predicate CanSubmit(isSubmitting: bool, p: PendingDeploy) {
    !isSubmitting && p.name != "" && p.siteId != "" && p.buildHook != "" && p.accessToken != ""
  }

  /** The document created from the dialog's values; `generated` is the
      random id suffix. */
  function NewDocumentFor(p: PendingDeploy, generated: string): (d: NewDocument)
    ensures d.docType == WebhookType
    ensures |d.record.id| == |IdPrefix| + |generated|
    ensures d.record.id[..|IdPrefix|] == IdPrefix && d.record.id[|IdPrefix|..] == generated
    ensures d.record.name == p.name && d.record.siteId == p.siteId && d.record.buildHook == p.buildHook
    ensures d.record.branch == p.branch && d.record.accessToken == p.accessToken
    ensures d.record.onlyShowProductionDeploys == p.onlyShowProductionDeploys
    ensures d.record.disableDeleteAction == p.disableDeleteAction
  {
    NewDocument(WebhookType, Project(IdPrefix + generated, p.name, p.siteId, p.buildHook, p.branch,
                                     p.accessToken, p.onlyShowProductionDeploys, p.disableDeleteAction))
  }

  /** Distinct suffixes give distinct ids. */
  lemma NewDocumentIdsDistinct(p: PendingDeploy, q: PendingDeploy, g: string, h: string)
    requires g != h
    ensures NewDocumentFor(p, g).record.id != NewDocumentFor(q, h).record.id
  {
    var a, b := NewDocumentFor(p, g).record.id, NewDocumentFor(q, h).record.id;
    assert a[|IdPrefix|..] == g && b[|IdPrefix|..] == h;
  }

  /** A document the enabled button can send has every required field set. */
  lemma SubmittedDocumentComplete(p: PendingDeploy, generated: string)
    requires CanSubmit(false, p)
    ensures var r := NewDocumentFor(p, generated).record;
      r.name != "" && r.siteId != "" && r.buildHook != "" && r.accessToken != ""
  {
  }

  /** Clicking Create as the page does it: when enabled, a create request is
      sent, but `isSubmitting` is left false. */
  function ClickCreateAsWritten(d: Dialog, generated: string): (r: (Dialog, Option<NewDocument>))
    ensures r.1.Some? <==> CanSubmit(d.isSubmitting, d.pending)
    ensures r.1.Some? ==> r.1.value == NewDocumentFor(d.pending, generated)
    ensures r.0 == d
  {
    if CanSubmit(d.isSubmitting, d.pending) then (d, Some(NewDocumentFor(d.pending, generated)))
    else (d, None)
  }

  /** Clicking Create with the button marked as submitting until the store
      confirms, which is what `loading={isSubmitting}` and the later reset to
      false stand for. */
  function ClickCreate(d: Dialog, generated: string): (r: (Dialog, Option<NewDocument>))
    ensures r.1.Some? <==> CanSubmit(d.isSubmitting, d.pending)
    ensures r.1.Some? ==> r.1.value == NewDocumentFor(d.pending, generated) && r.0 == d.(isSubmitting := true)
    ensures r.1.None? ==> r.0 == d
  {
    if CanSubmit(d.isSubmitting, d.pending) then (d.(isSubmitting := true), Some(NewDocumentFor(d.pending, generated)))
    else (d, None)
  }

  /** The store confirmed the create: the dialog closes and is reset. */
  function CreateConfirmed(d: Dialog): Dialog {
    Dialog(false, false, InitialDeploy)
  }

  /** As written, a second click before the store answers sends a second
      create of the same values under a new id. */
  lemma DoubleCreateAsWritten(d: Dialog, g1: string, g2: string)
    requires CanSubmit(d.isSubmitting, d.pending)
    requires g1 != g2
    ensures var (d1, first) := ClickCreateAsWritten(d, g1);
            var (_, second) := ClickCreateAsWritten(d1, g2);
            first.Some? && second.Some?
            && first.value.record.id != second.value.record.id
            && first.value.record.name == second.value.record.name
  {
    NewDocumentIdsDistinct(d.pending, d.pending, g1, g2);
  }

  /** With the flag set on submit, a second click does nothing until the
      store confirms. */
  lemma SingleCreate(d: Dialog, g1: string, g2: string)
    requires CanSubmit(d.isSubmitting, d.pending)
    ensures var (d1, first) := ClickCreate(d, g1);
            var (d2, second) := ClickCreate(d1, g2);
            first.Some? && second.None? && d2 == d1
  {
  }

  /** After a confirmed create the reset dialog cannot be submitted until
      its required fields are filled in again. */
  lemma ResetDialogDisabled(d: Dialog)
    ensures !CanSubmit(CreateConfirmed(d).isSubmitting, CreateConfirmed(d).pending)
  {
  }
}

=== FILE: deploy_history.dfy ===
/**
 * The deployment-history dialog of a project: the request it makes, the
 * fetch state, which of spinner, error card and table it shows, and the
 * cells of each table row.
 */
module DeployHistory {
  import opened Wrappers
  import opened Text
  import opened Records
  import Api
  import DeployStatus

  /** The placeholder of an empty cell (an en dash). */
  const Dash := "–"

  /** The request for the history: the same deploy list the row polls. */
  function HistoryRequest(siteId: string, onlyShowProductionDeploys: bool): (r: Api.Request)
    ensures "production" in r.params <==> onlyShowProductionDeploys
    ensures r.params.Keys <= {"production"}
  {
    Api.DeploysRequest(siteId, onlyShowProductionDeploys)
  }

  // ---------------------------------------------------------------------
  // Durations

  /** Whole minutes and the remaining seconds of a duration in seconds. */
  function SplitDeployTime(totalSeconds: nat): (r: (nat, nat))
    ensures r.1 < 60
    ensures r.0 * 60 + r.1 == totalSeconds
  {
    (totalSeconds / 60, totalSeconds % 60)
  }

  /** A duration as "{minutes}m {seconds}s". */
  function FormatDeployTime(totalSeconds: nat): string {
    var (minutes, seconds) := SplitDeployTime(totalSeconds);
    NatToString(minutes) + "m " + NatToString(seconds) + "s"
  }

  /** Reads a duration back from "{minutes}m {seconds}s", with the seconds
      below 60. */
  function ParseDeployTime(s: string): Option<nat> {
    var k := IndexOf(s, "m");
    if 1 <= k && k + 3 <= |s| && s[k..k + 2] == "m " && s[|s| - 1] == 's'
    then ParseParts(s[..k], s[k + 2..|s| - 1])
    else None
  }

  function ParseParts(minutes: string, seconds: string): Option<nat> {
    if |seconds| == 0 || !AllDigits(minutes) || !AllDigits(seconds) || ParseDigits(seconds) >= 60 then None
    else Some(ParseDigits(minutes) * 60 + ParseDigits(seconds))
  }

  /** The first "m" of a rendered duration is the one after the minutes. */
  lemma FirstMAfterDigits(a: string, rest: string)
    requires AllDigits(a)
    requires |rest| > 0 && rest[0] == 'm'
    ensures IndexOf(a + rest, "m") == |a|
  {
    var s := a + rest;
    assert OccursAt(s, "m", |a|) by {
      assert s[|a|..|a| + 1] == [rest[0]];
    }
    forall j | 0 <= j < |a|
      ensures !OccursAt(s, "m", j)
    {
      assert s[j..j + 1] == [a[j]];
      assert IsDigit(a[j]);
    }
  }

  /** Reading "{a}m {b}s" for digit strings a and b. */
  lemma ParseComposed(a: string, b: string)
    requires |a| >= 1 && AllDigits(a)
    ensures ParseDeployTime(a + "m " + b + "s") == ParseParts(a, b)
  {
    var s := a + "m " + b + "s";
    var k := |a|;
    assert IndexOf(s, "m") == k by {
      assert s == a + ("m " + b + "s");
      FirstMAfterDigits(a, "m " + b + "s");
    }
    DurationTextParts(a, b);
    ParseAtSeparator(s, k);
  }

  /** Where the pieces of "{a}m {b}s" sit. */
  lemma DurationTextParts(a: string, b: string)
    ensures var s := a + "m " + b + "s"; var k := |a|;
      |s| == k + 3 + |b| && s[k..k + 2] == "m " && s[|s| - 1] == 's'
      && s[..k] == a && s[k + 2..|s| - 1] == b
  {
  }

  lemma ParseAtSeparator(s: string, k: int)
    requires IndexOf(s, "m") == k && 1 <= k && k + 3 <= |s|
    requires s[k..k + 2] == "m " && s[|s| - 1] == 's'
    ensures ParseDeployTime(s) == ParseParts(s[..k], s[k + 2..|s| - 1])
  {
  }

  lemma ParsePartsDigits(a: string, b: string)
    requires |b| >= 1 && AllDigits(a) && AllDigits(b)
    requires ParseDigits(b) < 60
    ensures ParseParts(a, b) == Some(ParseDigits(a) * 60 + ParseDigits(b))
  {
  }

  /** The rendered duration can be read back: rendering loses nothing. */
  lemma FormatParseRoundTrip(totalSeconds: nat)
    ensures ParseDeployTime(FormatDeployTime(totalSeconds)) == Some(totalSeconds)
  {
    var (minutes, seconds) := SplitDeployTime(totalSeconds);
    ParseNatToString(minutes);
    ParseNatToString(seconds);
    ParseComposed(NatToString(minutes), NatToString(seconds));
    ParsePartsDigits(NatToString(minutes), NatToString(seconds));
  }

  /** Distinct durations render differently. */
  lemma FormatDeployTimeInjective(t: nat, u: nat)
    requires FormatDeployTime(t) == FormatDeployTime(u)
    ensures t == u
  {
    FormatParseRoundTrip(t);
    FormatParseRoundTrip(u);
  }

  // ---------------------------------------------------------------------
  // Rows

  datatype CommitCell = NoCommit | CommitLink(href: string, text: string)
  datatype PermalinkButton = NoPermalink | Permalink(href: Option<string>)

  /** The cells of one history row. */
  datatype Row = Row(
    branch: string,
    badge: DeployStatus.Badge,
    commit: CommitCell,
    duration: string,
    adminLink: string,
    permalink: PermalinkButton)

  /** The commit cell: a link labelled with the first seven characters of the
      commit ref when there is a commit URL, else a dash. */
  function CommitCellOf(d: Deployment): (c: CommitCell)
    ensures c.NoCommit? <==> d.commitUrl == ""
    ensures c.CommitLink? ==> c.href == d.commitUrl && c.text <= d.commitRef && |c.text| == Min(7, |d.commitRef|)
  {
    if d.commitUrl != "" then CommitLink(d.commitUrl, Take(d.commitRef, 7)) else NoCommit
  }

  function Min(a: nat, b: nat): nat {
    if a <= b then a else b
  }

  /** The duration cell: a dash for a missing or zero deploy time, else the
      rendered duration. */
  function DurationCell(deployTime: nat): (s: string)
    ensures deployTime == 0 ==> s == Dash
    ensures deployTime > 0 ==> ParseDeployTime(s) == Some(deployTime)
  {
    if deployTime != 0 then
      FormatParseRoundTrip(deployTime);
      FormatDeployTime(deployTime)
    else Dash
  }

  /** The permalink button is there only for a deploy whose state is exactly
      "ready", in lower case. */
  function PermalinkOf(d: Deployment): (b: PermalinkButton)
    ensures b.Permalink? <==> d.state == "ready"
    ensures b.Permalink? ==> b.href == d.permalink
  {
    if d.state == "ready" then Permalink(d.permalink) else NoPermalink
  }

  /** The cells of a deploy's row; the admin link opens the deploy in the
      provider's dashboard. */
  function RowOf(d: Deployment): Row {
    Row(d.branch, DeployStatus.Present(d.state, d.errorMessage), CommitCellOf(d),
        DurationCell(d.deployTime), d.adminUrl + "/deploys/" + d.id, PermalinkOf(d))
  }

  /** A dash never reads as a duration, so the duration cell tells a missing
      deploy time from every real one. */
  lemma DurationCellIff(t: nat)
    ensures DurationCell(t) == Dash <==> t == 0
  {
    if t > 0 {
      assert ParseDeployTime(Dash) == None by {
        assert |Dash| == 1;
      }
    }
  }

  /** The provider's upper-case spelling gets no permalink. */
  lemma UpperReadyHasNoPermalink(d: Deployment)
    requires d.state == "READY"
    ensures RowOf(d).permalink == NoPermalink
  {
    assert "READY" != "ready" by {
      assert "READY"[0] != "ready"[0];
    }
  }

  // ---------------------------------------------------------------------
  // The fetch and what the dialog shows

  datatype HistoryState = HistoryState(deployments: seq<Deployment>, loading: bool, error: bool)

  const InitialHistory := HistoryState([], false, false)

  datatype HistoryView = Spinner | CouldNotLoad(siteId: string) | Table(rows: seq<Row>)

  function StartFetch(h: HistoryState): HistoryState {
    h.(loading := true)
  }

  function FetchSucceeded(h: HistoryState, data: seq<Deployment>): HistoryState {
    HistoryState(data, false, false)
  }

  function FetchFailed(h: HistoryState): HistoryState {
    h.(loading := false, error := true)
  }

  /** The rows of a deploy list, in its order. */
  function Rows(ds: seq<Deployment>): (rows: seq<Row>)
    ensures |rows| == |ds|
    ensures forall i :: 0 <= i < |ds| ==> rows[i] == RowOf(ds[i])
  {
    if |ds| == 0 then [] else [RowOf(ds[0])] + Rows(ds[1..])
  }

  /** Loading is checked before the error flag. */
  function View(h: HistoryState, siteId: string): (v: HistoryView)
    ensures v.Spinner? <==> h.loading
    ensures v.CouldNotLoad? <==> !h.loading && h.error
    ensures v.CouldNotLoad? ==> v.siteId == siteId
    ensures v.Table? ==> |v.rows| == |h.deployments|
  {
    if h.loading then Spinner
    else if h.error then CouldNotLoad(siteId)
    else Table(Rows(h.deployments))
  }

  /** While a fetch is outstanding the spinner shows, even over an earlier
      failure. */
  lemma LoadingFirst(h: HistoryState, siteId: string)
    ensures View(StartFetch(h), siteId) == Spinner
  {
  }

  /** A successful fetch shows one row per deploy, in the provider's order,
      and forgets an earlier failure. */
  lemma SuccessShowsTable(h: HistoryState, data: seq<Deployment>, siteId: string)
    ensures var v := View(FetchSucceeded(StartFetch(h), data), siteId);
      v.Table? && |v.rows| == |data| && forall i :: 0 <= i < |data| ==> v.rows[i] == RowOf(data[i])
  {
  }

  /** The dialog opens with its fetch outstanding, so it first shows the
      spinner; the first answer then decides between table and error card. */
  lemma DialogOpensLoading(siteId: string, data: seq<Deployment>)
    ensures View(StartFetch(InitialHistory), siteId) == Spinner
    ensures View(FetchSucceeded(StartFetch(InitialHistory), data), siteId) == Table(Rows(data))
    ensures View(FetchFailed(StartFetch(InitialHistory)), siteId) == CouldNotLoad(siteId)
  {
  }

  /** A failed fetch shows the error card, keeping the earlier deployments
      unshown. */
  lemma FailureShowsError(h: HistoryState, siteId: string)
    ensures View(FetchFailed(StartFetch(h)), siteId) == CouldNotLoad(siteId)
    ensures FetchFailed(StartFetch(h)).deployments == h.deployments
  {
  }
}

=== FILE: deploy_item.dfy ===
/**
 * One project row of the main page. Its state is the status derived from the
 * provider's deploy list, whether a deploy is running, whether a request is
 * pending, the start time of the shown deploy, the build-time text, the
 * last poll error and the last deploy list the poller delivered. Events are
 * the poll outcomes and the outcomes of the Deploy, Cancel and Delete
 * actions; the requests themselves are I/O.
 *
 * The poller compares a refreshed list with the one it holds and keeps the
 * old one when they are equal, so the row's reaction to new data runs only
 * for a list that differs from the last one delivered. The poller is keyed
 * by the site id, the token and the production flag: an edit of any of them
 * makes it forget the held list, so the next list is always new data.
 */
module DeployItem {
  import opened Wrappers
  import opened Text
  import opened Records
  import DeployStatus
  import Api

  datatype ItemState = ItemState(
    status: string,
    isDeploying: bool,
    isLoading: bool,
    timestamp: Option<string>,
    buildTime: Option<string>,
    errorMessage: Option<string>,
    data: Option<seq<Deployment>>)

  const InitialItem := ItemState("LOADING", false, true, None, None, None, None)

  datatype ItemEvent =
    | PollSucceeded(list: seq<Deployment>)           // a refresh returned this list
    | PollFailed(responseMessage: string, failureMessage: string)  // one request failed
    | DeployClicked                                  // the build hook POST is sent
    | DeployRejected                                 // that POST failed
    | CancelClicked                                  // the cancel POST is sent
    | CancelSucceeded(updatedAt: string)             // the provider confirmed the cancel
    | RemoveClicked                                  // the project's delete is sent
    | PollKeyChanged                                 // an edit changed the poller's key

  /** Statuses after which no deploy is running. */
  const Finished: set<string> := {"READY", "ERROR", "CANCELED"}

  /** Statuses during which a deploy is running. */
  const Running: set<string> := {"BUILDING", "ENQUEUED"}

  /** Statuses during which the provider accepts a cancel. */
  const Cancelable: set<string> := {"BUILDING", "ENQUEUED", "PREPARING", "PROCESSING"}

  const FallbackError := "Something went wrong!"

  /** The status of the newest deploy: its state upper-cased, or READY when
      the list is empty or the newest deploy has no state. */
  function LatestStatus(data: seq<Deployment>): (status: string)
    ensures status != "" && HasNoLowerAscii(status)
    ensures (|data| == 0 || data[0].state == "") ==> status == "READY"
    ensures |data| > 0 && data[0].state != "" ==> status == ToUpper(data[0].state)
  {
    if |data| > 0 && ToUpper(data[0].state) != "" then ToUpper(data[0].state) else "READY"
  }

  /** The message shown after a failed poll: the provider's error message,
      else the failure's own message, else a fixed text. */
  function PollErrorMessage(responseMessage: string, failureMessage: string): (m: string)
    ensures m != ""
    ensures m == responseMessage || m == failureMessage || m == FallbackError
    ensures responseMessage != "" ==> m == responseMessage
    ensures responseMessage == "" && failureMessage != "" ==> m == failureMessage
  {
    if responseMessage != "" then responseMessage
    else if failureMessage != "" then failureMessage
    else FallbackError
  }

  /** What the event handlers write. A refresh equal to the list the row
      already holds leaves the row alone. */
  function Handle(s: ItemState, e: ItemEvent): ItemState {
    match e
    case PollSucceeded(list) =>
      if s.data == Some(list) then s
      else
        s.(data := Some(list),
           status := LatestStatus(list),
           timestamp := if |list| > 0 && list[0].createdAt != "" then Some(list[0].createdAt) else s.timestamp,
           isLoading := false)
    case PollFailed(responseMessage, failureMessage) =>
      s.(status := "ERROR",
         errorMessage := Some(PollErrorMessage(responseMessage, failureMessage)),
         isLoading := false)
    case DeployClicked =>
      s.(status := "ENQUEUED", isDeploying := true, timestamp := None, buildTime := None)
    case DeployRejected =>
      s.(isDeploying := false)
    case CancelClicked =>
      s.(isLoading := true)
    case CancelSucceeded(updatedAt) =>
      s.(status := "CANCELED", isDeploying := false, isLoading := false,
         buildTime := None, timestamp := Some(updatedAt))
    case RemoveClicked =>
      s.(isLoading := true)
    case PollKeyChanged =>
      s.(data := None)
  }

  /** The reaction that runs whenever the status has changed. */
  function React(s: ItemState): ItemState {
    if s.status in Finished then s.(isDeploying := false)
    else if s.status in Running then s.(isDeploying := true)
    else s
  }

  /** One event: the handlers' writes, then the reaction if the status moved. */
  function Step(s: ItemState, e: ItemEvent): ItemState {
    var t := Handle(s, e);
    if t.status != s.status then React(t) else t
  }

  /** The state after a sequence of events. */
  function Run(s: ItemState, es: seq<ItemEvent>): ItemState
    decreases |es|
  {
    if |es| == 0 then s else Run(Step(s, es[0]), es[1..])
  }

  /** A read of the newest deploy that finds no list, or an empty one. */
  datatype ReadFault = ReadOfUndefined

  // ---------------------------------------------------------------------
  // Controls of the row

  /** The Deploy button is enabled. */
  predicate CanDeploy(s: ItemState) {
    !s.isDeploying && !s.isLoading
  }

  /** The Cancel button is shown. */
  predicate CancelOffered(s: ItemState) {
    s.isDeploying && s.status in Cancelable
  }

  /** The row's menu button is enabled. */
  predicate MenuEnabled(s: ItemState) {
    !s.isLoading
  }

  /** The History entry is enabled once a non-empty deploy list arrived. */
  predicate HistoryEnabled(data: Option<seq<Deployment>>) {
    data.Some? && |data.value| > 0
  }

  /** The Delete entry is shown unless the project disables it. */
  predicate DeleteOffered(p: Project) {
    !p.disableDeleteAction
  }

  /** What the row offers: the Deploy and Cancel buttons, the menu button,
      and the menu's History and Delete entries (Edit is always there). */
  datatype Controls = Controls(deploy: bool, cancel: bool, menu: bool, history: bool, delete: bool)

  function RowControls(s: ItemState, p: Project): (c: Controls)
    ensures c.cancel ==> !c.deploy && s.status in Cancelable
    ensures c.deploy ==> c.menu
    ensures c.history <==> s.data.Some? && |s.data.value| > 0
    ensures c.delete <==> !p.disableDeleteAction
  {
    Controls(CanDeploy(s), CancelOffered(s), MenuEnabled(s), HistoryEnabled(s.data), DeleteOffered(p))
  }

  // ---------------------------------------------------------------------
  // The Cancel button's target

  /** The deploy id the Cancel button sends, as the row reads it: the newest
      deploy of the held list, read without a guard, so a missing or empty
      list has no element to read. */
  function CancelTargetAsWritten(data: Option<seq<Deployment>>): (r: Result<string, ReadFault>)
    ensures r.Err? <==> !HistoryEnabled(data)
    ensures r.Ok? ==> r.value == data.value[0].id
  {
    if data.Some? && |data.value| > 0 then Ok(data.value[0].id) else Err(ReadOfUndefined)
  }

  /** The target with the missing and the empty list guarded: no target. */
  function CancelTarget(data: Option<seq<Deployment>>): (r: Option<string>)
    ensures r.Some? <==> HistoryEnabled(data)
    ensures r.Some? ==> r.value == data.value[0].id
  {
    if data.Some? && |data.value| > 0 then Some(data.value[0].id) else None
  }

  /** The cancel request a click sends, with the corrected target: the
      newest deploy's cancel URL, when Cancel is shown and a deploy is
      known. */
  function CancelRequest(s: ItemState): (url: Option<string>)
    ensures url.Some? <==> CancelOffered(s) && HistoryEnabled(s.data)
    ensures url.Some? ==> url.value == Api.CancelUrl(s.data.value[0].id)
  {
    if CancelOffered(s) then
      match CancelTarget(s.data)
      case Some(id) => Some(Api.CancelUrl(id))
      case None => None
    else None
  }

  /** Cancel is shown before any list arrived: a failed first poll followed
      by Deploy. The written click then reads the newest deploy of a missing
      list; the corrected one sends nothing. */
  lemma CancelOfferedWithoutList()
    ensures var t := Run(InitialItem, [PollFailed("", ""), DeployClicked]);
      CancelOffered(t) && t.data.None?
      && CancelTargetAsWritten(t.data).Err? && CancelRequest(t).None?
  {
    var t1 := Step(InitialItem, PollFailed("", ""));
    var t2 := Step(t1, DeployClicked);
    assert t2.data.None? && t2.status == "ENQUEUED" && t2.isDeploying;
    assert Run(InitialItem, [PollFailed("", ""), DeployClicked]) == t2 by {
      assert [PollFailed("", ""), DeployClicked][1..] == [DeployClicked];
      assert [DeployClicked][1..] == [];
    }
  }

  /** Right after Deploy, before a list holding the new deploy arrives, the
      corrected click still targets the newest deploy of the held list,
      which is the previous one. */
  lemma CancelTargetsPreviousDeploy(s: ItemState)
    requires HistoryEnabled(s.data)
    ensures CancelRequest(Step(s, DeployClicked)) == Some(Api.CancelUrl(s.data.value[0].id))
  {
    var t := Step(s, DeployClicked);
    assert t.status == "ENQUEUED" && t.isDeploying && t.data == s.data;
  }

  /** Wherever the written target can be read, the corrected one agrees. */
  lemma CancelTargetAgrees(data: Option<seq<Deployment>>)
    requires CancelTargetAsWritten(data).Ok?
    ensures CancelTarget(data) == Some(CancelTargetAsWritten(data).value)
  {
  }

  /** The badge of the row. It is computed from the last deploy list the poll
      delivered and the stored poll error, not from `status`. */
  function ItemBadge(data: Option<seq<Deployment>>, errorMessage: Option<string>): (b: DeployStatus.Badge)
    // a stored poll error replaces the newest deploy's message
    ensures errorMessage.Some? && errorMessage.value != "" ==>
              b == DeployStatus.Present(
                     if HistoryEnabled(data) && data.value[0].state != "" then data.value[0].state else "LOADING",
                     errorMessage.value)
    // without one, the newest deploy is shown with its own message
    ensures (errorMessage.None? || errorMessage.value == "") && HistoryEnabled(data) ==>
              b == DeployStatus.Present(
                     if data.value[0].state != "" then data.value[0].state else "LOADING",
                     data.value[0].errorMessage)
    // and before a non-empty list arrived the badge is the plain LOADING one
    ensures (errorMessage.None? || errorMessage.value == "") && !HistoryEnabled(data) ==>
              b == DeployStatus.Present("LOADING", "")
  {
    var status := if HistoryEnabled(data) && data.value[0].state != "" then data.value[0].state else "LOADING";
    var message :=
      if errorMessage.Some? && errorMessage.value != "" then errorMessage.value
      else if HistoryEnabled(data) then data.value[0].errorMessage
      else "";
    DeployStatus.Present(status, message)
  }

  /** Before any deploy list arrived and without a poll error the badge
      reads LOADING. */
  lemma ItemBadgeLoading()
    ensures ItemBadge(None, None).text == "LOADING"
    ensures ItemBadge(Some([]), None).text == "LOADING"
  {
    DeployStatus.EmptyMessageLabel("LOADING");
    ToUpperFixesUpper("LOADING");
  }

  /** The branch badge as the row renders it: the newest deploy's branch once
      a list arrived, else a dash; an arrived but empty list has no newest
      deploy to read. */
  function BranchBadgeAsWritten(data: Option<seq<Deployment>>): (r: Result<string, ReadFault>)
    ensures r.Err? <==> data == Some([])
  {
    if data.None? then Ok("–")
    else if |data.value| == 0 then Err(ReadOfUndefined)
    else Ok(data.value[0].branch)
  }

  /** The branch badge with the empty list shown as a dash too. */
  function BranchBadge(data: Option<seq<Deployment>>): (branch: string)
    ensures HistoryEnabled(data) ==> branch == data.value[0].branch
    ensures !HistoryEnabled(data) ==> branch == "–"
  {
    if data.Some? && |data.value| > 0 then data.value[0].branch else "–"
  }

  /** A site without any deploy breaks the row as written. */
  lemma BranchBadgeEmptyListFails()
    ensures BranchBadgeAsWritten(Some([])).Err?
    ensures BranchBadge(Some([])) == "–"
  {
  }

  /** Wherever the written badge works, the corrected one agrees with it. */
  lemma BranchBadgeAgrees(data: Option<seq<Deployment>>)
    requires BranchBadgeAsWritten(data).Ok?
    ensures BranchBadgeAsWritten(data).value == BranchBadge(data)
  {
  }

  // ---------------------------------------------------------------------
  // Properties of the events

  /** The reaction to a status change: finished statuses stop the deploying
      flag, running ones set it, every other status leaves it; an event that
      keeps the status only does what its handler writes. */
  lemma StepReaction(s: ItemState, e: ItemEvent)
    ensures var t := Step(s, e); var h := Handle(s, e);
      t.status == h.status
      && (h.status != s.status && h.status in Finished ==> !t.isDeploying)
      && (h.status != s.status && h.status in Running ==> t.isDeploying)
      && (h.status != s.status && h.status !in Finished && h.status !in Running ==> t.isDeploying == h.isDeploying)
      && (h.status == s.status ==> t == h)
      && t.isLoading == h.isLoading && t.timestamp == h.timestamp
      && t.buildTime == h.buildTime && t.errorMessage == h.errorMessage
  {
  }

  /** Only a successful poll replaces the list the row holds, and only a
      change of the poller's key forgets it. */
  lemma DataOnlyFromPolls(s: ItemState, e: ItemEvent)
    ensures !e.PollSucceeded? && !e.PollKeyChanged? ==> Step(s, e).data == s.data
    ensures e.PollSucceeded? ==> Step(s, e).data == Some(e.list)
    ensures e.PollKeyChanged? ==> Step(s, e).data == None
  {
  }

  /** A refresh that returns the list the row already holds changes
      nothing. */
  lemma UnchangedRefreshNoop(s: ItemState, list: seq<Deployment>)
    requires s.data == Some(list)
    ensures Step(s, PollSucceeded(list)) == s
  {
  }

  /** A change of the poller's key keeps everything the row shows but the
      held list. Deploy's optimistic ENQUEUED then no longer survives a
      refresh that returns the same list: the list is new data and its
      newest status replaces ENQUEUED. Between the two, Cancel is shown
      with no list to read a target from. */
  lemma KeyChangeForgetsList(s: ItemState, list: seq<Deployment>)
    ensures var k := Step(s, PollKeyChanged);
      k == s.(data := None)
    ensures var k := Step(Step(s, DeployClicked), PollKeyChanged);
      CancelOffered(k) && CancelTargetAsWritten(k.data).Err? && CancelRequest(k).None?
    ensures var t := Step(Step(Step(s, DeployClicked), PollKeyChanged), PollSucceeded(list));
      t.data == Some(list) && t.status == LatestStatus(list) && !t.isLoading
      && (LatestStatus(list) in Finished ==> !t.isDeploying)
  {
    var k := Step(Step(s, DeployClicked), PollKeyChanged);
    assert k.data.None? && k.status == "ENQUEUED" && k.isDeploying;
  }

  /** A refresh in which only a field the row does not read changed (say
      the newest deploy's `updated_at`) is still a new list, and runs the
      row's reaction to it. */
  lemma OtherFieldChangeIsNewData(s: ItemState, d: Deployment, key: string, v: string)
    requires s.data == Some([d])
    requires key !in d.others || d.others[key] != v
    ensures var d' := d.(others := d.others[key := v]);
      var t := Step(s, PollSucceeded([d']));
      t.data == Some([d']) && t.status == LatestStatus([d]) && !t.isLoading
  {
    var d' := d.(others := d.others[key := v]);
    assert [d'] != [d] by {
      assert d'.others[key] == v;
      assert [d'][0] == d';
    }
  }

  /** A changed list takes the status from the newest deploy alone, ends
      loading, and moves the start time only when the newest deploy has one;
      the stored poll error is not cleared. An unchanged list does nothing. */
  lemma PollSucceededEffect(s: ItemState, list: seq<Deployment>)
    ensures var t := Step(s, PollSucceeded(list));
      (s.data == Some(list) ==> t == s)
      && (s.data != Some(list) ==>
            t.data == Some(list)
            && t.status == LatestStatus(list)
            && !t.isLoading
            && (|list| > 0 && list[0].createdAt != "" ==> t.timestamp == Some(list[0].createdAt))
            && (|list| == 0 || list[0].createdAt == "" ==> t.timestamp == s.timestamp)
            && t.errorMessage == s.errorMessage
            && t.buildTime == s.buildTime)
  {
  }

  /** A changed list overrides an optimistic or failed status: afterwards
      the status depends on the list alone, not on the state before it. */
  lemma PollSupersedes(s1: ItemState, s2: ItemState, list: seq<Deployment>)
    ensures s1.data != Some(list) && s2.data != Some(list) ==>
      Step(s1, PollSucceeded(list)).status == LatestStatus(list)
      && Step(s2, PollSucceeded(list)).status == LatestStatus(list)
  {
  }

  /** Deploy's optimistic ENQUEUED outlives refreshes that return the list
      the row already holds: Deploy stays disabled and Cancel offered until
      the list changes. */
  lemma DeploySurvivesUnchangedRefresh(s: ItemState, list: seq<Deployment>)
    requires s.data == Some(list)
    ensures var t := Step(Step(s, DeployClicked), PollSucceeded(list));
      t == Step(s, DeployClicked)
      && t.status == "ENQUEUED" && t.isDeploying && CancelOffered(t) && !CanDeploy(t)
  {
    DataOnlyFromPolls(s, DeployClicked);
    UnchangedRefreshNoop(Step(s, DeployClicked), list);
  }

  /** Likewise a failed poll's ERROR outlives refreshes of the held list. */
  lemma ErrorSurvivesUnchangedRefresh(s: ItemState, list: seq<Deployment>,
                                      responseMessage: string, failureMessage: string)
    requires s.data == Some(list)
    ensures var t := Step(Step(s, PollFailed(responseMessage, failureMessage)), PollSucceeded(list));
      t.status == "ERROR" && t.errorMessage == Some(PollErrorMessage(responseMessage, failureMessage))
  {
    DataOnlyFromPolls(s, PollFailed(responseMessage, failureMessage));
    UnchangedRefreshNoop(Step(s, PollFailed(responseMessage, failureMessage)), list);
  }

  /** A failed poll shows ERROR with a non-empty message and stops any
      running deploy indicator; the held list stays. */
  lemma PollFailedEffect(s: ItemState, responseMessage: string, failureMessage: string)
    ensures var t := Step(s, PollFailed(responseMessage, failureMessage));
      t.status == "ERROR"
      && !t.isLoading
      && t.errorMessage == Some(PollErrorMessage(responseMessage, failureMessage))
      && (s.status != "ERROR" ==> !t.isDeploying)
      && t.data == s.data
  {
  }

  /** Deploy is optimistic: ENQUEUED, running, no start time and no build time. */
  lemma DeployClickedEffect(s: ItemState)
    ensures var t := Step(s, DeployClicked);
      t.status == "ENQUEUED" && t.isDeploying && t.timestamp.None? && t.buildTime.None?
      && t.isLoading == s.isLoading
      && CancelOffered(t) && !CanDeploy(t)
  {
  }

  /** A rejected build-hook POST only resets the deploying flag: the status
      stays ENQUEUED and Cancel is no longer offered. */
  lemma DeployRejectedKeepsEnqueued(s: ItemState)
    ensures var t := Step(Step(s, DeployClicked), DeployRejected);
      t.status == "ENQUEUED" && !t.isDeploying && !CancelOffered(t)
      && (CanDeploy(t) <==> !s.isLoading)
  {
  }

  /** A confirmed cancel settles the row. */
  lemma CancelSucceededEffect(s: ItemState, updatedAt: string)
    ensures var t := Step(Step(s, CancelClicked), CancelSucceeded(updatedAt));
      t.status == "CANCELED" && !t.isDeploying && !t.isLoading
      && t.buildTime.None? && t.timestamp == Some(updatedAt)
      && !CancelOffered(t) && CanDeploy(t)
  {
  }

  /** A sent delete locks the row's menu and Deploy button; only a refresh
      with a changed list unlocks the menu again. */
  lemma RemoveLocksRow(s: ItemState, list: seq<Deployment>)
    ensures var t := Step(s, RemoveClicked);
      !MenuEnabled(t) && !CanDeploy(t) && t.status == s.status && t.isDeploying == s.isDeploying
      && (s.data != Some(list) ==> MenuEnabled(Step(t, PollSucceeded(list))))
      && (s.data == Some(list) ==> !MenuEnabled(Step(t, PollSucceeded(list))))
  {
  }

  /** Cancel and Deploy are never available together. */
  lemma CancelExcludesDeploy(s: ItemState)
    requires CancelOffered(s)
    ensures !CanDeploy(s)
  {
  }

  /** The deploying flag after a changed list. */
  lemma PollDeploying(s: ItemState, list: seq<Deployment>)
    requires s.data != Some(list)
    ensures var t := Step(s, PollSucceeded(list)); var status := LatestStatus(list);
      t.status == status && t.data == Some(list)
      && (status != s.status && status in Finished ==> !t.isDeploying)
      && (status != s.status && status in Running ==> t.isDeploying)
      && (status == s.status ==> t.isDeploying == s.isDeploying)
  {
  }

  /** A changed list whose newest deploy is building. */
  lemma PollBuilding(s: ItemState, d: Deployment)
    requires d.state == "building"
    requires s.data != Some([d])
    requires s.status != "BUILDING" || s.isDeploying
    ensures Step(s, PollSucceeded([d])).status == "BUILDING"
    ensures Step(s, PollSucceeded([d])).isDeploying
    ensures Step(s, PollSucceeded([d])).data == Some([d])
  {
    assert LatestStatus([d]) == "BUILDING" by {
      assert ToUpper("building") == "BUILDING";
    }
    assert "BUILDING" in Running;
    PollDeploying(s, [d]);
  }

  /** A changed list whose newest deploy is ready. */
  lemma PollReady(s: ItemState, d: Deployment)
    requires d.state == "ready"
    requires s.data != Some([d])
    requires s.status != "READY" || !s.isDeploying
    ensures Step(s, PollSucceeded([d])).status == "READY"
    ensures !Step(s, PollSucceeded([d])).isDeploying
  {
    assert LatestStatus([d]) == "READY" by {
      assert ToUpper("ready") == "READY";
    }
    assert "READY" in Finished;
    PollDeploying(s, [d]);
  }

  /** Three refreshes reporting building, building, ready show BUILDING,
      BUILDING, READY, with the deploying flag on, on, off; the repeated
      list changes nothing. */
  lemma BuildingBuildingReady(s: ItemState, building: Deployment, ready: Deployment)
    requires s.status != "BUILDING" && s.data != Some([building])
    requires building.state == "building" && ready.state == "ready"
    ensures var s1 := Step(s, PollSucceeded([building]));
      var s2 := Step(s1, PollSucceeded([building]));
      var s3 := Step(s2, PollSucceeded([ready]));
      s1.status == "BUILDING" && s2.status == "BUILDING" && s3.status == "READY"
      && s1.isDeploying && s2.isDeploying && !s3.isDeploying
  {
    var s1 := Step(s, PollSucceeded([building]));
    PollBuilding(s, building);
    UnchangedRefreshNoop(s1, [building]);
    assert [building] != [ready] by {
      assert |building.state| != |ready.state|;
    }
    PollReady(s1, ready);
  }

  /** The row's badges after a changed, non-empty list without a stored
      poll error show its newest deploy. */
  lemma ChangedListShowsNewest(s: ItemState, list: seq<Deployment>)
    requires s.data != Some(list) && |list| > 0 && list[0].state != ""
    requires s.errorMessage.None?
    ensures var t := Step(s, PollSucceeded(list));
      ItemBadge(t.data, t.errorMessage) == DeployStatus.Present(list[0].state, list[0].errorMessage)
      && BranchBadge(t.data) == list[0].branch
  {
    assert Step(s, PollSucceeded(list)).data == Some(list);
  }

  /** The poll status ignores the error message, while the badge does not:
      a canceled build, which the provider reports as state "error" with a
      "Canceled build" message, sets status ERROR but shows CANCELED. */
  lemma CanceledBuildStatusDiffersFromBadge(d: Deployment)
    requires d.state == "error" && d.errorMessage == "Canceled build"
    ensures LatestStatus([d]) == "ERROR"
    ensures ItemBadge(Some([d]), None).text == "CANCELED"
  {
    assert ToUpper("error") == "ERROR";
    assert OccursAt(d.errorMessage, DeployStatus.CanceledMarker, 0);
    ContainsAt(d.errorMessage, DeployStatus.CanceledMarker, 0);
    DeployStatus.CanceledOverride(d.state, d.errorMessage);
  }

  // ---------------------------------------------------------------------
  // An invariant of every reachable state

  /** The status is a non-empty upper-case word and a stored poll error is
      never empty. */
  predicate Valid(s: ItemState) {
    s.status != "" && HasNoLowerAscii(s.status)
    && (s.errorMessage.Some? ==> s.errorMessage.value != "")
  }

  lemma StepPreservesValid(s: ItemState, e: ItemEvent)
    requires Valid(s)
    ensures Valid(Step(s, e))
  {
  }

  lemma {:induction false} RunPreservesValid(s: ItemState, es: seq<ItemEvent>)
    requires Valid(s)
    ensures Valid(Run(s, es))
    decreases |es|
  {
    if |es| > 0 {
      StepPreservesValid(s, es[0]);
      RunPreservesValid(Step(s, es[0]), es[1..]);
    }
  }

  /** Every state the row can reach from its initial state is valid. */
  lemma ReachableValid(es: seq<ItemEvent>)
    ensures Valid(Run(InitialItem, es))
  {
    ToUpperFixesUpper("LOADING");
    RunPreservesValid(InitialItem, es);
  }
}

=== FILE: deploy_status.dfy ===
/**
 * The status badge: a raw provider state and an optional error message
 * become an upper-case label, and the label selects the badge's tone, its
 * mode, and whether the error message is offered behind a warning icon.
 * An absent error message is the empty string.
 */
module DeployStatus {
  import opened Text

  const CanceledMarker := "Canceled build"
  const SkippedMarker := "Skipped"

  datatype Tone = DefaultTone | Critical | Positive | Caution
  datatype Mode = DefaultMode | Outline

  /** What the badge shows. */
  datatype Badge = Badge(text: string, tone: Tone, mode: Mode, showWarning: bool)

  /** The state before upper-casing: the two error-message overrides are
      tested first, in this order; otherwise the raw state. */
  function GetStatus(status: string, errorMessage: string): string {
    if errorMessage != "" && IndexOf(errorMessage, CanceledMarker) >= 0 then "canceled"
    else if errorMessage != "" && IndexOf(errorMessage, SkippedMarker) >= 0 then "skipped"
    else status
  }

  /** The label on the badge. */
  function Label(status: string, errorMessage: string): (badgeStatus: string)
    ensures HasNoLowerAscii(badgeStatus)
    ensures |badgeStatus| == |GetStatus(status, errorMessage)|
  {
    ToUpper(GetStatus(status, errorMessage))
  }

  /** The tone lookup table; a label missing from it falls back to the
      default tone. */
  const ToneTable: map<string, Tone> := map[
    "NEW" := DefaultTone,
    "LOADING" := DefaultTone,
    "ERROR" := Critical,
    "ENQUEUED" := DefaultTone,
    "CANCELED" := DefaultTone,
    "SKIPPED" := DefaultTone,
    "READY" := Positive,
    "BUILDING" := Caution,
    "PREPARING" := Caution,
    "PROCESSING" := Caution]

  /** The mode lookup table; a label missing from it falls back to the
      default mode. */
  const ModeTable: map<string, Mode> := map[
    "LOADING" := Outline,
    "READY" := Outline,
    "SKIPPED" := Outline,
    "CANCELED" := Outline]

  function ToneOf(badgeStatus: string): (tone: Tone)
    ensures tone == Critical <==> badgeStatus == "ERROR"
    ensures tone == Positive <==> badgeStatus == "READY"
    ensures tone == Caution <==> badgeStatus == "BUILDING" || badgeStatus == "PREPARING" || badgeStatus == "PROCESSING"
    ensures tone == DefaultTone <==>
      badgeStatus != "ERROR" && badgeStatus != "READY" && badgeStatus != "BUILDING" && badgeStatus != "PREPARING" && badgeStatus != "PROCESSING"
  {
    if badgeStatus in ToneTable then ToneTable[badgeStatus] else DefaultTone
  }

  function ModeOf(badgeStatus: string): (mode: Mode)
    ensures mode == Outline <==> badgeStatus == "LOADING" || badgeStatus == "READY" || badgeStatus == "SKIPPED" || badgeStatus == "CANCELED"
  {
    if badgeStatus in ModeTable then ModeTable[badgeStatus] else DefaultMode
  }

  /** The warning icon appears for a non-empty error message unless the
      label already explains it. */
  predicate ShowWarning(badgeStatus: string, errorMessage: string) {
    errorMessage != "" && badgeStatus != "CANCELED" && badgeStatus != "SKIPPED"
  }

  /** The badge for a raw state and an error message. */
  function Present(status: string, errorMessage: string): Badge {
    var badgeStatus := Label(status, errorMessage);
    Badge(badgeStatus, ToneOf(badgeStatus), ModeOf(badgeStatus), ShowWarning(badgeStatus, errorMessage))
  }

  /** A message mentioning a canceled build makes the label CANCELED,
      whatever the raw state and whatever else the message says. */
  lemma CanceledOverride(status: string, errorMessage: string)
    requires Contains(errorMessage, CanceledMarker)
    ensures Label(status, errorMessage) == "CANCELED"
  {
    assert errorMessage != "" by {
      if errorMessage == "" {
        NotContainedInEmpty(CanceledMarker);
      }
    }
  }

  /** Otherwise a message mentioning a skip makes the label SKIPPED. */
  lemma SkippedOverride(status: string, errorMessage: string)
    requires !Contains(errorMessage, CanceledMarker)
    requires Contains(errorMessage, SkippedMarker)
    ensures Label(status, errorMessage) == "SKIPPED"
  {
    assert errorMessage != "" by {
      if errorMessage == "" {
        NotContainedInEmpty(SkippedMarker);
      }
    }
  }

  /** Without either marker the label is exactly the upper-cased raw state;
      in particular for an absent or empty message. */
  lemma RawStateLabel(status: string, errorMessage: string)
    requires !Contains(errorMessage, CanceledMarker)
    requires !Contains(errorMessage, SkippedMarker)
    ensures Label(status, errorMessage) == ToUpper(status)
  {
  }

  lemma EmptyMessageLabel(status: string)
    ensures Label(status, "") == ToUpper(status)
  {
    NotContainedInEmpty(CanceledMarker);
    NotContainedInEmpty(SkippedMarker);
    RawStateLabel(status, "");
  }

  /** The label is CANCELED exactly when the message says so, or when no
      marker applies and the raw state is "canceled" in any letter case. */
  lemma LabelCanceledIff(status: string, errorMessage: string)
    ensures Label(status, errorMessage) == "CANCELED" <==>
      Contains(errorMessage, CanceledMarker)
      || (!Contains(errorMessage, SkippedMarker) && ToUpper(status) == "CANCELED")
  {
    if Contains(errorMessage, CanceledMarker) {
      CanceledOverride(status, errorMessage);
    } else if Contains(errorMessage, SkippedMarker) {
      SkippedOverride(status, errorMessage);
      assert "SKIPPED" != "CANCELED";
    } else {
      RawStateLabel(status, errorMessage);
    }
  }

  /** The warning icon shows exactly when the message is non-empty, names
      neither a canceled nor a skipped build, and the raw state is neither
      canceled nor skipped. */
  lemma WarningIff(status: string, errorMessage: string)
    ensures Present(status, errorMessage).showWarning <==>
      errorMessage != ""
      && !Contains(errorMessage, CanceledMarker)
      && !Contains(errorMessage, SkippedMarker)
      && ToUpper(status) != "CANCELED" && ToUpper(status) != "SKIPPED"
  {
    if Contains(errorMessage, CanceledMarker) {
      CanceledOverride(status, errorMessage);
    } else if Contains(errorMessage, SkippedMarker) {
      SkippedOverride(status, errorMessage);
    } else {
      RawStateLabel(status, errorMessage);
    }
  }

  /** The provider's lower-case "ready" shows as a positive READY badge. */
  lemma ReadyIsPositive()
    ensures Present("ready", "").tone == Positive
  {
    EmptyMessageLabel("ready");
    assert ToUpper("ready") == "READY";
  }
}

=== FILE: edit_form.dfy ===
/**
 * The "Edit Project Deployment" dialog of a project row: the values it opens
 * with, when its Update button is enabled, the patch it sends, and what that
 * patch does to the stored project.
 */
module EditForm {
  import opened Wrappers
  import opened Records

  /** A field value of a patch. */
  datatype FieldValue = Str(text: string) | Flag(flag: bool)

  /** A `set` patch: field name to new value. */
  type Patch = map<string, FieldValue>

  /** The fields every edit writes. */
  const AlwaysSet: set<string> :=
    {"name", "siteId", "buildHook", "branch", "onlyShowProductionDeploys", "disableDeleteAction"}

  /** The dialog opens with the project's values, except that the access
      token field starts empty: the stored token is never shown. */
  function EditValues(p: Project): (f: PendingDeploy)
    ensures f.accessToken == ""
    ensures f.name == p.name && f.siteId == p.siteId && f.buildHook == p.buildHook && f.branch == p.branch
    ensures f.onlyShowProductionDeploys == p.onlyShowProductionDeploys
    ensures f.disableDeleteAction == p.disableDeleteAction
  {
    PendingDeploy(p.name, p.siteId, p.buildHook, p.branch, "",
                  p.onlyShowProductionDeploys, p.disableDeleteAction)
  }

  /** The Update button is enabled; unlike the create dialog it does not ask
      for an access token. */
  predicate CanSubmitEdit(isSubmitting: bool, f: PendingDeploy) {
    !isSubmitting && f.name != "" && f.siteId != "" && f.buildHook != ""
  }

  /** The patch sent on Update: the six non-secret fields always, the access
      token only when one was typed. */
  function EditPatch(f: PendingDeploy): (patch: Patch)
    ensures patch.Keys == AlwaysSet + (if f.accessToken != "" then {"accessToken"} else {})
    ensures "accessToken" in patch ==> patch["accessToken"] == Str(f.accessToken)
    ensures patch["name"] == Str(f.name) && patch["siteId"] == Str(f.siteId)
    ensures patch["buildHook"] == Str(f.buildHook) && patch["branch"] == Str(f.branch)
    ensures patch["onlyShowProductionDeploys"] == Flag(f.onlyShowProductionDeploys)
    ensures patch["disableDeleteAction"] == Flag(f.disableDeleteAction)
  {
    var update := map[
      "name" := Str(f.name),
      "siteId" := Str(f.siteId),
      "buildHook" := Str(f.buildHook),
      "branch" := Str(f.branch),
      "onlyShowProductionDeploys" := Flag(f.onlyShowProductionDeploys),
      "disableDeleteAction" := Flag(f.disableDeleteAction)];
    if f.accessToken != "" then update["accessToken" := Str(f.accessToken)] else update
  }

  function StrOr(patch: Patch, key: string, current: string): string {
    if key in patch && patch[key].Str? then patch[key].text else current
  }

  function FlagOr(patch: Patch, key: string, current: bool): bool {
    if key in patch && patch[key].Flag? then patch[key].flag else current
  }

  /** The store's `set`: every field the patch names takes the patch's value,
      every other field, and the id, are kept. */
  function ApplySet(p: Project, patch: Patch): Project {
    Project(p.id,
            StrOr(patch, "name", p.name),
            StrOr(patch, "siteId", p.siteId),
            StrOr(patch, "buildHook", p.buildHook),
            StrOr(patch, "branch", p.branch),
            StrOr(patch, "accessToken", p.accessToken),
            FlagOr(patch, "onlyShowProductionDeploys", p.onlyShowProductionDeploys),
            FlagOr(patch, "disableDeleteAction", p.disableDeleteAction))
  }

  /** After an edit the project holds the dialog's values; it keeps its id,
      and its stored token unless a new one was typed. */
  lemma EditResult(p: Project, f: PendingDeploy)
    ensures var q := ApplySet(p, EditPatch(f));
      q.id == p.id
      && q.name == f.name && q.siteId == f.siteId && q.buildHook == f.buildHook && q.branch == f.branch
      && q.onlyShowProductionDeploys == f.onlyShowProductionDeploys
      && q.disableDeleteAction == f.disableDeleteAction
      && q.accessToken == (if f.accessToken != "" then f.accessToken else p.accessToken)
  {
  }

  /** Submitting the dialog unchanged leaves the project as it was, token
      included. */
  lemma UnchangedEditIsNoop(p: Project)
    ensures ApplySet(p, EditPatch(EditValues(p))) == p
  {
    EditResult(p, EditValues(p));
  }

  /** A project with its required fields set can be updated straight away,
      although the token field is empty. */
  lemma OpenedDialogSubmittable(p: Project)
    requires p.name != "" && p.siteId != "" && p.buildHook != ""
    ensures CanSubmitEdit(false, EditValues(p))
  {
  }

  /** Opening the dialog for a project. */
  function OpenEdit(d: Dialog, p: Project): Dialog {
    d.(isOpen := true, pending := EditValues(p))
  }

  /** Clicking Update as the row does it: when enabled the patch is sent,
      but `isSubmitting` is left false. */
  function ClickUpdateAsWritten(d: Dialog): (r: (Dialog, Option<Patch>))
    ensures r.1.Some? <==> CanSubmitEdit(d.isSubmitting, d.pending)
    ensures r.1.Some? ==> r.1.value == EditPatch(d.pending)
    ensures r.0 == d
  {
    if CanSubmitEdit(d.isSubmitting, d.pending) then (d, Some(EditPatch(d.pending))) else (d, None)
  }

  /** Clicking Update with the button marked as submitting until the store
      confirms. */
  function ClickUpdate(d: Dialog): (r: (Dialog, Option<Patch>))
    ensures r.1.Some? <==> CanSubmitEdit(d.isSubmitting, d.pending)
    ensures r.1.Some? ==> r.1.value == EditPatch(d.pending) && r.0 == d.(isSubmitting := true)
    ensures r.1.None? ==> r.0 == d
  {
    if CanSubmitEdit(d.isSubmitting, d.pending) then (d.(isSubmitting := true), Some(EditPatch(d.pending)))
    else (d, None)
  }

  /** The store confirmed the patch: the dialog closes; its values stay. */
  function UpdateConfirmed(d: Dialog): Dialog {
    d.(isOpen := false, isSubmitting := false)
  }

  /** As written, a second click before the store answers sends the patch
      again. */
  lemma DoubleUpdateAsWritten(d: Dialog)
    requires CanSubmitEdit(d.isSubmitting, d.pending)
    ensures var (d1, first) := ClickUpdateAsWritten(d);
            var (_, second) := ClickUpdateAsWritten(d1);
            first.Some? && second == first
  {
  }

  /** With the flag set on submit, a second click sends nothing. */
  lemma SingleUpdate(d: Dialog)
    requires CanSubmitEdit(d.isSubmitting, d.pending)
    ensures var (d1, first) := ClickUpdate(d);
            var (d2, second) := ClickUpdate(d1);
            first.Some? && second.None? && d2 == d1
  {
  }

  /** Opening the dialog on a complete project and pressing Update at once
      sends a patch that leaves the project as it was, and the confirmation
      closes the dialog. */
  lemma EditRoundTrip(d: Dialog, p: Project)
    requires !d.isSubmitting
    requires p.name != "" && p.siteId != "" && p.buildHook != ""
    ensures var (d1, patch) := ClickUpdate(OpenEdit(d, p));
      patch.Some? && ApplySet(p, patch.value) == p
      && !UpdateConfirmed(d1).isOpen && !UpdateConfirmed(d1).isSubmitting
  {
    UnchangedEditIsNoop(p);
  }
}

=== FILE: project_list.dfy ===
/**
 * The live project list of the tool's main page. After the initial fetch the
 * page subscribes to the store's change feed for `webhook_deploy` documents;
 * each mutation event is folded into the list: a create appends the event's
 * result, a patch replaces every entry with the event's document id by the
 * result, and a delete drops every such entry. An event carrying several
 * kinds applies them in the fixed order create, patch, delete.
 */
module ProjectList {
  import opened Wrappers
  import opened Records

  /** One mutation of a transaction, known only by the keys it carries
      (`create`, `createOrReplace`, `patch`, `delete`, ...). */
  datatype Mutation = Mutation(keys: set<string>)

  /** An event of the change feed: a mutation of one document, with the
      document as it is afterwards when there is one, or any other event
      (`welcome`, `reconnect`). */
  datatype ListenEvent =
    | MutationEvent(documentId: string, mutations: seq<Mutation>, result: Option<Project>)
    | OtherEvent(eventType: string)

  /** A patch without a result puts `undefined` in place of every matching
      entry; the page cannot render such a list. */
  datatype Fault = UndefinedEntry

  /** Some mutation of the transaction carries `key` as its own property. */
  function HasKind(ms: seq<Mutation>, key: string): (b: bool)
    ensures b <==> exists i :: 0 <= i < |ms| && key in ms[i].keys
  {
    if |ms| == 0 then false
    else if key in ms[0].keys then true
    else
      var rest := HasKind(ms[1..], key);
      assert forall i :: 1 <= i < |ms| ==> ms[i] == ms[1..][i - 1];
      rest
  }

  /** The number of entries with the given id. */
  function Count(list: seq<Project>, id: string): nat {
    if |list| == 0 then 0
    else (if list[0].id == id then 1 else 0) + Count(list[1..], id)
  }

  predicate HasId(list: seq<Project>, id: string) {
    exists i :: 0 <= i < |list| && list[i].id == id
  }

  lemma {:induction false} CountZeroIff(list: seq<Project>, id: string)
    ensures Count(list, id) == 0 <==> !HasId(list, id)
  {
    if |list| > 0 {
      CountZeroIff(list[1..], id);
      assert forall i :: 1 <= i < |list| ==> list[i] == list[1..][i - 1];
      if HasId(list[1..], id) {
        var i :| 0 <= i < |list[1..]| && list[1..][i].id == id;
        assert list[i + 1].id == id;
      }
    }
  }

  lemma {:induction false} CountAppend(a: seq<Project>, b: seq<Project>, id: string)
    ensures Count(a + b, id) == Count(a, id) + Count(b, id)
  {
    if |a| == 0 {
      assert a + b == b;
    } else {
      assert (a + b)[1..] == a[1..] + b;
      CountAppend(a[1..], b, id);
    }
  }

  /** The create step: the result, when there is one, goes at the end. */
  function Create(list: seq<Project>, result: Option<Project>): (r: seq<Project>)
    ensures result.Some? ==> |r| == |list| + 1 && r[..|list|] == list && r[|list|] == result.value
    ensures result.None? ==> r == list
  {
    if result.Some? then list + [result.value] else list
  }

  /** The patch step with a result: every entry with the id becomes the
      result, every other entry stays where it is. */
  function Replace(list: seq<Project>, id: string, p: Project): (r: seq<Project>)
    ensures |r| == |list|
    ensures forall i :: 0 <= i < |list| ==> r[i] == (if list[i].id == id then p else list[i])
  {
    if |list| == 0 then []
    else [if list[0].id == id then p else list[0]] + Replace(list[1..], id, p)
  }

  /** The delete step: the entries with another id, in their order. */
  function Delete(list: seq<Project>, id: string): (r: seq<Project>)
    ensures |r| <= |list|
    ensures forall x :: x in r <==> x in list && x.id != id
    ensures forall x :: multiset(r)[x] == if x.id == id then 0 else multiset(list)[x]
  {
    if |list| == 0 then []
    else
      var rest := Delete(list[1..], id);
      assert list == [list[0]] + list[1..];
      if list[0].id == id then rest else [list[0]] + rest
  }

  /** The patch step. */
  function Patch(list: seq<Project>, id: string, result: Option<Project>): (r: Result<seq<Project>, Fault>)
    ensures r.Err? <==> result.None? && HasId(list, id)
    ensures r.Ok? && result.Some? ==> r.value == Replace(list, id, result.value)
    ensures r.Ok? && result.None? ==> r.value == list
  {
    if result.Some? then Ok(Replace(list, id, result.value))
    else if HasId(list, id) then Err(UndefinedEntry)
    else Ok(list)
  }

  /** One change-feed event folded into the list. */
  function ApplyEvent(list: seq<Project>, e: ListenEvent): Result<seq<Project>, Fault> {
    match e
    case OtherEvent(_) => Ok(list)
    case MutationEvent(id, ms, result) =>
      var created := if HasKind(ms, "create") then Create(list, result) else list;
      var patched := if HasKind(ms, "patch") then Patch(created, id, result) else Ok(created);
      match patched
      case Err(f) => Err(f)
      case Ok(l) => Ok(if HasKind(ms, "delete") then Delete(l, id) else l)
  }

  // ---------------------------------------------------------------------
  // Properties of the single steps

  /** A patch for an id no entry has changes nothing. */
  lemma ReplaceAbsent(list: seq<Project>, id: string, p: Project)
    requires !HasId(list, id)
    ensures Replace(list, id, p) == list
  {
  }

  /** A delete for an id no entry has changes nothing. */
  lemma {:induction false} DeleteAbsent(list: seq<Project>, id: string)
    requires !HasId(list, id)
    ensures Delete(list, id) == list
  {
    if |list| > 0 {
      DeleteAbsent(list[1..], id);
      assert list == [list[0]] + list[1..];
    }
  }

  /** After a delete no entry has the id. */
  lemma DeleteRemovesAll(list: seq<Project>, id: string)
    ensures !HasId(Delete(list, id), id)
  {
  }

  /** The delete keeps the relative order of the survivors: it treats the two
      halves of a list independently. */
  lemma {:induction false} DeleteConcat(a: seq<Project>, b: seq<Project>, id: string)
    ensures Delete(a + b, id) == Delete(a, id) + Delete(b, id)
  {
    if |a| == 0 {
      assert a + b == b;
    } else {
      assert (a + b)[0] == a[0];
      assert (a + b)[1..] == a[1..] + b;
      DeleteConcat(a[1..], b, id);
    }
  }

  /** Create does not deduplicate: the same create twice leaves two more
      entries with the result's id than there were. */
  lemma CreateTwice(list: seq<Project>, p: Project)
    ensures Count(Create(Create(list, Some(p)), Some(p)), p.id) == Count(list, p.id) + 2
  {
    CountAppend(list, [p], p.id);
    CountAppend(list + [p], [p], p.id);
    assert [p][1..] == [];
  }

  /** Hence create is not idempotent, even starting from a list without the id. */
  lemma CreateNotIdempotent(list: seq<Project>, p: Project)
    requires !HasId(list, p.id)
    ensures Count(Create(Create(list, Some(p)), Some(p)), p.id) == 2
    ensures Create(Create(list, Some(p)), Some(p)) != Create(list, Some(p))
  {
    CountZeroIff(list, p.id);
    CreateTwice(list, p);
  }

  // ---------------------------------------------------------------------
  // Properties of whole events

  /** Events other than mutations leave the list alone. */
  lemma OtherEventNoop(list: seq<Project>, t: string)
    ensures ApplyEvent(list, OtherEvent(t)) == Ok(list)
  {
  }

  /** A create-only event with a result appends it; without a result it
      changes nothing. */
  lemma CreateEvent(list: seq<Project>, id: string, ms: seq<Mutation>, result: Option<Project>)
    requires HasKind(ms, "create") && !HasKind(ms, "patch") && !HasKind(ms, "delete")
    ensures result.Some? ==> ApplyEvent(list, MutationEvent(id, ms, result)) == Ok(list + [result.value])
    ensures result.None? ==> ApplyEvent(list, MutationEvent(id, ms, result)) == Ok(list)
  {
  }

  /** A patch-only event with a result replaces the matching entries in
      place and leaves the length alone. */
  lemma PatchEvent(list: seq<Project>, id: string, ms: seq<Mutation>, p: Project)
    requires !HasKind(ms, "create") && HasKind(ms, "patch") && !HasKind(ms, "delete")
    ensures ApplyEvent(list, MutationEvent(id, ms, Some(p))) == Ok(Replace(list, id, p))
  {
  }

  /** A delete-only event drops the matching entries, and is a no-op for an
      id that is not in the list. */
  lemma DeleteEvent(list: seq<Project>, id: string, ms: seq<Mutation>, result: Option<Project>)
    requires !HasKind(ms, "create") && !HasKind(ms, "patch") && HasKind(ms, "delete")
    ensures ApplyEvent(list, MutationEvent(id, ms, result)) == Ok(Delete(list, id))
    ensures !HasId(list, id) ==> ApplyEvent(list, MutationEvent(id, ms, result)) == Ok(list)
  {
    if !HasId(list, id) {
      DeleteAbsent(list, id);
    }
  }

  /** Whatever else an event carries, a delete runs last: once the event
      applies, no entry with its document id is left. In particular a
      create and a delete of the same document in one event cancel out. */
  lemma DeleteRunsLast(list: seq<Project>, id: string, ms: seq<Mutation>, result: Option<Project>)
    requires HasKind(ms, "delete")
    ensures match ApplyEvent(list, MutationEvent(id, ms, result))
            case Ok(r) => !HasId(r, id)
            case Err(_) => true
  {
    var created := if HasKind(ms, "create") then Create(list, result) else list;
    var patched := if HasKind(ms, "patch") then Patch(created, id, result) else Ok(created);
    if patched.Ok? {
      DeleteRemovesAll(patched.value, id);
    }
  }

  /** An event never faults when it carries its document. */
  lemma ResultNeverFaults(list: seq<Project>, id: string, ms: seq<Mutation>, p: Project)
    ensures ApplyEvent(list, MutationEvent(id, ms, Some(p))).Ok?
  {
  }

  /** A patch event without a result faults exactly when the list holds the
      document. */
  lemma PatchWithoutResult(list: seq<Project>, id: string, ms: seq<Mutation>)
    requires !HasKind(ms, "create") && HasKind(ms, "patch")
    ensures ApplyEvent(list, MutationEvent(id, ms, None)).Err? <==> HasId(list, id)
  {
  }

  /** A one-entry list patched by an event that renames its document holds
      one entry, the renamed document, in the same place. */
  lemma RenameScenario(a: Project, newName: string, ms: seq<Mutation>)
    requires !HasKind(ms, "create") && HasKind(ms, "patch") && !HasKind(ms, "delete")
    ensures ApplyEvent([a], MutationEvent(a.id, ms, Some(a.(name := newName)))) == Ok([a.(name := newName)])
  {
    var r := Replace([a], a.id, a.(name := newName));
    assert r[0] == a.(name := newName);
    assert r == [a.(name := newName)];
  }

  // ---------------------------------------------------------------------
  // Events on different documents commute

  /** The patch and delete steps of an event that carries its document `x`. */
  function InPlace(list: seq<Project>, id: string, ms: seq<Mutation>, x: Project): seq<Project> {
    var patched := if HasKind(ms, "patch") then Replace(list, id, x) else list;
    if HasKind(ms, "delete") then Delete(patched, id) else patched
  }

  /** What such an event appends: its document, unless it also deletes it. */
  function Tail(id: string, ms: seq<Mutation>, x: Project): seq<Project> {
    InPlace(if HasKind(ms, "create") then [x] else [], id, ms, x)
  }

  lemma {:induction false} ReplaceConcat(a: seq<Project>, b: seq<Project>, id: string, x: Project)
    ensures Replace(a + b, id, x) == Replace(a, id, x) + Replace(b, id, x)
  {
    var r, ra, rb := Replace(a + b, id, x), Replace(a, id, x), Replace(b, id, x);
    assert |r| == |ra + rb|;
    forall i | 0 <= i < |r|
      ensures r[i] == (ra + rb)[i]
    {
      if i < |a| {
        assert (a + b)[i] == a[i];
      } else {
        assert (a + b)[i] == b[i - |a|];
      }
    }
  }

  lemma InPlaceConcat(a: seq<Project>, b: seq<Project>, id: string, ms: seq<Mutation>, x: Project)
    ensures InPlace(a + b, id, ms, x) == InPlace(a, id, ms, x) + InPlace(b, id, ms, x)
  {
    var pa, pb := if HasKind(ms, "patch") then Replace(a, id, x) else a,
                  if HasKind(ms, "patch") then Replace(b, id, x) else b;
    assert (if HasKind(ms, "patch") then Replace(a + b, id, x) else a + b) == pa + pb by {
      ReplaceConcat(a, b, id, x);
    }
    if HasKind(ms, "delete") {
      DeleteConcat(pa, pb, id);
    }
  }

  /** The in-place steps never introduce an id other than the event's. */
  lemma InPlaceNoNewIds(list: seq<Project>, id: string, ms: seq<Mutation>, x: Project, other: string)
    requires x.id == id && other != id
    requires !HasId(list, other)
    ensures !HasId(InPlace(list, id, ms, x), other)
  {
    var patched := if HasKind(ms, "patch") then Replace(list, id, x) else list;
    assert !HasId(patched, other);
    if HasKind(ms, "delete") {
      var r := Delete(patched, id);
      forall i | 0 <= i < |r|
        ensures r[i].id != other
      {
        assert r[i] in r;
        assert r[i] in patched;
      }
    }
  }

  /** An event carrying its document changes the list in place and then
      appends its tail. */
  lemma ApplySplits(list: seq<Project>, id: string, ms: seq<Mutation>, x: Project)
    ensures ApplyEvent(list, MutationEvent(id, ms, Some(x))) == Ok(InPlace(list, id, ms, x) + Tail(id, ms, x))
  {
    var created := if HasKind(ms, "create") then [x] else [];
    assert Create(list, Some(x)) == list + [x];
    InPlaceConcat(list, created, id, ms, x);
    assert list + [] == list;
  }

  /** The tail is empty or the document alone. */
  lemma TailShape(id: string, ms: seq<Mutation>, x: Project)
    requires x.id == id
    ensures Tail(id, ms, x) == [] || Tail(id, ms, x) == [x]
    ensures Tail(id, ms, x) == [x] <==> HasKind(ms, "create") && !HasKind(ms, "delete")
  {
    var r := Replace([x], id, x);
    assert r[0] == x;
    assert r == [x];
    assert Delete([x], id) == [];
  }

  /** The in-place steps of an event leave a list without its document alone. */
  lemma InPlaceAbsent(list: seq<Project>, id: string, ms: seq<Mutation>, x: Project)
    requires !HasId(list, id)
    ensures InPlace(list, id, ms, x) == list
  {
    ReplaceAbsent(list, id, x);
    DeleteAbsent(list, id);
  }

  lemma InPlaceCommuteOne(y: Project, i1: string, ms1: seq<Mutation>, x1: Project,
                          i2: string, ms2: seq<Mutation>, x2: Project)
    requires i1 != i2 && x1.id == i1 && x2.id == i2
    ensures InPlace(InPlace([y], i1, ms1, x1), i2, ms2, x2) == InPlace(InPlace([y], i2, ms2, x2), i1, ms1, x1)
  {
    // [y] is untouched by the event whose document it is not, and what the
    // other event leaves of it still lacks that event's id.
    if y.id == i1 {
      InPlaceAbsent([y], i2, ms2, x2);
      InPlaceNoNewIds([y], i1, ms1, x1, i2);
      InPlaceAbsent(InPlace([y], i1, ms1, x1), i2, ms2, x2);
    } else if y.id == i2 {
      InPlaceAbsent([y], i1, ms1, x1);
      InPlaceNoNewIds([y], i2, ms2, x2, i1);
      InPlaceAbsent(InPlace([y], i2, ms2, x2), i1, ms1, x1);
    } else {
      InPlaceAbsent([y], i1, ms1, x1);
      InPlaceAbsent([y], i2, ms2, x2);
    }
  }

  lemma {:induction false} InPlaceCommute(list: seq<Project>, i1: string, ms1: seq<Mutation>, x1: Project,
                                          i2: string, ms2: seq<Mutation>, x2: Project)
    requires i1 != i2 && x1.id == i1 && x2.id == i2
    ensures InPlace(InPlace(list, i1, ms1, x1), i2, ms2, x2) == InPlace(InPlace(list, i2, ms2, x2), i1, ms1, x1)
  {
    if |list| > 0 {
      var head, rest := [list[0]], list[1..];
      assert list == head + rest;
      InPlaceConcat(head, rest, i1, ms1, x1);
      InPlaceConcat(head, rest, i2, ms2, x2);
      InPlaceConcat(InPlace(head, i1, ms1, x1), InPlace(rest, i1, ms1, x1), i2, ms2, x2);
      InPlaceConcat(InPlace(head, i2, ms2, x2), InPlace(rest, i2, ms2, x2), i1, ms1, x1);
      InPlaceCommuteOne(list[0], i1, ms1, x1, i2, ms2, x2);
      InPlaceCommute(rest, i1, ms1, x1, i2, ms2, x2);
    }
  }

  /** The list after `e1` then `e2`, for events that carry their documents. */
  function ApplyBoth(list: seq<Project>, i1: string, ms1: seq<Mutation>, x1: Project,
                     i2: string, ms2: seq<Mutation>, x2: Project): seq<Project>
  {
    InPlace(InPlace(list, i1, ms1, x1) + Tail(i1, ms1, x1), i2, ms2, x2) + Tail(i2, ms2, x2)
  }

  lemma ApplyBothIs(list: seq<Project>, i1: string, ms1: seq<Mutation>, x1: Project,
                    i2: string, ms2: seq<Mutation>, x2: Project)
    requires i1 != i2 && x1.id == i1 && x2.id == i2
    ensures ApplyBoth(list, i1, ms1, x1, i2, ms2, x2)
            == InPlace(InPlace(list, i1, ms1, x1), i2, ms2, x2) + Tail(i1, ms1, x1) + Tail(i2, ms2, x2)
  {
    InPlaceConcat(InPlace(list, i1, ms1, x1), Tail(i1, ms1, x1), i2, ms2, x2);
    TailShape(i1, ms1, x1);
    InPlaceAbsent(Tail(i1, ms1, x1), i2, ms2, x2);
  }

  /** Two events on different documents, each carrying its document, give
      the same entries in either order; the lists are equal exactly when at
      most one of the events appends; otherwise the two appended documents
      trade places. */
  lemma DisjointEventsCommute(list: seq<Project>, i1: string, ms1: seq<Mutation>, x1: Project,
                              i2: string, ms2: seq<Mutation>, x2: Project)
    requires i1 != i2 && x1.id == i1 && x2.id == i2
    ensures var e1, e2 := MutationEvent(i1, ms1, Some(x1)), MutationEvent(i2, ms2, Some(x2));
      var a := ApplyEvent(list, e1);
      var b := ApplyEvent(list, e2);
      a.Ok? && b.Ok? && ApplyEvent(a.value, e2).Ok? && ApplyEvent(b.value, e1).Ok?
      && multiset(ApplyEvent(a.value, e2).value) == multiset(ApplyEvent(b.value, e1).value)
      && (Tail(i1, ms1, x1) == [] || Tail(i2, ms2, x2) == []
          <==> ApplyEvent(a.value, e2).value == ApplyEvent(b.value, e1).value)
  {
    var e1, e2 := MutationEvent(i1, ms1, Some(x1)), MutationEvent(i2, ms2, Some(x2));
    var core := InPlace(InPlace(list, i1, ms1, x1), i2, ms2, x2);
    var t1, t2 := Tail(i1, ms1, x1), Tail(i2, ms2, x2);
    var a := InPlace(list, i1, ms1, x1) + t1;
    var b := InPlace(list, i2, ms2, x2) + t2;
    assert ApplyEvent(list, e1) == Ok(a) by {
      ApplySplits(list, i1, ms1, x1);
    }
    assert ApplyEvent(list, e2) == Ok(b) by {
      ApplySplits(list, i2, ms2, x2);
    }
    assert ApplyEvent(a, e2) == Ok(core + t1 + t2) by {
      ApplySplits(a, i2, ms2, x2);
      ApplyBothIs(list, i1, ms1, x1, i2, ms2, x2);
    }
    assert ApplyEvent(b, e1) == Ok(core + t2 + t1) by {
      ApplySplits(b, i1, ms1, x1);
      ApplyBothIs(list, i2, ms2, x2, i1, ms1, x1);
      InPlaceCommute(list, i1, ms1, x1, i2, ms2, x2);
    }
    TailShape(i1, ms1, x1);
    TailShape(i2, ms2, x2);
    SwapTails(core, t1, t2);
  }

  /** The store sends a delete without the document. Such an event and an
      event for another document that carries its document give the same
      list in either order. */
  lemma DeleteCommutesWithOtherEvent(list: seq<Project>, i1: string, ms1: seq<Mutation>, x1: Project,
                                     i2: string, ms2: seq<Mutation>)
    requires i1 != i2 && x1.id == i1
    requires !HasKind(ms2, "create") && !HasKind(ms2, "patch") && HasKind(ms2, "delete")
    ensures var e1, e2 := MutationEvent(i1, ms1, Some(x1)), MutationEvent(i2, ms2, None);
      var a := ApplyEvent(list, e1);
      var b := ApplyEvent(list, e2);
      a.Ok? && b.Ok? && ApplyEvent(a.value, e2).Ok?
      && ApplyEvent(a.value, e2) == ApplyEvent(b.value, e1)
  {
    var x2 := Project(i2, "", "", "", "", "", false, false);
    var e1 := MutationEvent(i1, ms1, Some(x1));
    DisjointEventsCommute(list, i1, ms1, x1, i2, ms2, x2);
    TailShape(i2, ms2, x2);
    var a := ApplyEvent(list, e1).value;
    DeleteEvent(list, i2, ms2, None);
    DeleteEvent(list, i2, ms2, Some(x2));
    DeleteEvent(a, i2, ms2, None);
    DeleteEvent(a, i2, ms2, Some(x2));
  }

  lemma SwapTails(core: seq<Project>, t1: seq<Project>, t2: seq<Project>)
    ensures multiset(core + t1 + t2) == multiset(core + t2 + t1)
    ensures t1 == [] || t2 == [] ==> core + t1 + t2 == core + t2 + t1
    ensures |t1| == 1 && |t2| == 1 && t1 != t2 ==> core + t1 + t2 != core + t2 + t1
  {
    if |t1| == 1 && |t2| == 1 && t1 != t2 {
      assert (core + t1 + t2)[|core| + 1] == t2[0];
      assert (core + t2 + t1)[|core| + 1] == t1[0];
      assert t1 == [t1[0]] && t2 == [t2[0]];
    }
    if t1 == [] {
      assert core + t1 + t2 == core + t2 + t1;
    } else if t2 == [] {
      assert core + t1 + t2 == core + t2 + t1;
    }
  }
}

=== FILE: records.dfy ===
/**
 * The record shapes the plugin works with: a stored deploy project, one
 * deployment as the provider's deploy list reports it, and the
 * create/edit form's pending values.
 *
 * An optional text field of the provider's JSON is modelled as the empty
 * string when it is absent: the plugin only ever tests such fields for
 * truthiness or reads them through `?.`, where `undefined` and `""` behave
 * alike. For the same reason an absent or null `deploy_time` is 0.
 */
module Records {
  import opened Wrappers

  /** A stored deploy project (a `webhook_deploy` document). */
  datatype Project = Project(
    id: string,
    name: string,
    siteId: string,
    buildHook: string,
    branch: string,
    accessToken: string,
    onlyShowProductionDeploys: bool,
    disableDeleteAction: bool)

  /** One deployment of a site, as listed by the provider, newest first.
      The fields the plugin reads are spelled out; `others` holds the rest of
      the provider's record (`updated_at`, `links`, …) as field name to JSON
      text, so that two deployments are equal exactly when the whole records
      are. */
  datatype Deployment = Deployment(
    id: string,
    branch: string,
    commitRef: string,
    commitUrl: string,
    committer: string,
    createdAt: string,
    deployTime: nat,
    permalink: Option<string>,
    adminUrl: string,
    errorMessage: string,
    state: string,
    others: map<string, string>)

  /** The values of the create and edit dialogs. */
  datatype PendingDeploy = PendingDeploy(
    name: string,
    siteId: string,
    buildHook: string,
    branch: string,
    accessToken: string,
    onlyShowProductionDeploys: bool,
    disableDeleteAction: bool)

  /** What both dialogs start from and are reset to. */
  const InitialDeploy := PendingDeploy("", "", "", "", "", true, false)

  /** A create or edit dialog: open or closed, submitting or not, and the
      values in its fields. */
  datatype Dialog = Dialog(isOpen: bool, isSubmitting: bool, pending: PendingDeploy)
}

=== FILE: text.dfy ===
/**
 * String primitives the plugin relies on from JavaScript: `toUpperCase`
 * (restricted to ASCII letters), `indexOf`, `substring(0, n)`, and the
 * decimal rendering of a non-negative integer inside a template literal.
 */
module Text {

  predicate IsLowerAscii(c: char) {
    'a' <= c <= 'z'
  }

  predicate IsDigit(c: char) {
    '0' <= c <= '9'
  }

  predicate AllDigits(s: string) {
    forall i :: 0 <= i < |s| ==> IsDigit(s[i])
  }

  predicate HasNoLowerAscii(s: string) {
    forall i :: 0 <= i < |s| ==> !IsLowerAscii(s[i])
  }

  /** ASCII upper-casing of one character; every other character is kept. */
  function UpperChar(c: char): (u: char)
    ensures !IsLowerAscii(u)
    ensures IsLowerAscii(c) ==> u as int == c as int - 32
    ensures !IsLowerAscii(c) ==> u == c
  {
    if IsLowerAscii(c) then (c as int - 32) as char else c
  }

  /** `s.toUpperCase()` on ASCII letters. */
  function ToUpper(s: string): (r: string)
    ensures |r| == |s|
    ensures HasNoLowerAscii(r)
    ensures forall i :: 0 <= i < |s| ==> r[i] == s[i] || (IsLowerAscii(s[i]) && r[i] as int == s[i] as int - 32)
  {
    if |s| == 0 then [] else [UpperChar(s[0])] + ToUpper(s[1..])
  }

  /** Upper-casing a string that has no lower-case letter changes nothing,
      so in particular upper-casing is idempotent. */
  lemma {:induction false} ToUpperFixesUpper(s: string)
    requires HasNoLowerAscii(s)
    ensures ToUpper(s) == s
  {
    if |s| > 0 {
      ToUpperFixesUpper(s[1..]);
    }
  }

  lemma ToUpperIdempotent(s: string)
    ensures ToUpper(ToUpper(s)) == ToUpper(s)
  {
    ToUpperFixesUpper(ToUpper(s));
  }

  /** `pat` occurs in `s` starting at index `j`. */
  predicate OccursAt(s: string, pat: string, j: int) {
    0 <= j && j + |pat| <= |s| && s[j..j + |pat|] == pat
  }

  function IndexOfFrom(s: string, pat: string, i: nat): (r: int)
    requires i <= |s|
    ensures r == -1 || (i <= r && OccursAt(s, pat, r))
    ensures r == -1 ==> forall j :: i <= j ==> !OccursAt(s, pat, j)
    ensures r >= 0 ==> forall j :: i <= j < r ==> !OccursAt(s, pat, j)
    decreases |s| - i
  {
    if i + |pat| > |s| then -1
    else if s[i..i + |pat|] == pat then i
    else if i == |s| then -1
    else IndexOfFrom(s, pat, i + 1)
  }

  /** JavaScript `s.indexOf(pat)`: the first position of `pat` in `s`, or -1. */
  function IndexOf(s: string, pat: string): (r: int)
    ensures r == -1 || OccursAt(s, pat, r)
    ensures r == -1 <==> forall j :: !OccursAt(s, pat, j)
    ensures r >= 0 ==> forall j :: j < r ==> !OccursAt(s, pat, j)
  {
    IndexOfFrom(s, pat, 0)
  }

  /** `s.indexOf(pat) >= 0`. */
  predicate Contains(s: string, pat: string) {
    IndexOf(s, pat) >= 0
  }

  lemma ContainsAt(s: string, pat: string, j: int)
    requires OccursAt(s, pat, j)
    ensures Contains(s, pat)
  {
  }

  /** A non-empty pattern never occurs in the empty string. */
  lemma NotContainedInEmpty(pat: string)
    requires pat != ""
    ensures !Contains("", pat)
  {
  }

  /** `s.substring(0, n)` for a non-negative `n`: the first `min(n, |s|)` characters. */
  function Take(s: string, n: nat): (r: string)
    ensures |r| <= n && |r| <= |s|
    ensures |r| == n || |r| == |s|
    ensures r <= s
  {
    if n <= |s| then s[..n] else s
  }

  function DigitChar(d: nat): (c: char)
    requires d < 10
    ensures IsDigit(c)
  {
    "0123456789"[d]
  }

  function DigitValue(c: char): (d: nat)
    requires IsDigit(c)
    ensures d < 10
  {
    c as int - '0' as int
  }

  /** The decimal text of `n`, as `${n}` renders a non-negative integer
      below 10^21 (larger numbers print in exponent form). */
  function NatToString(n: nat): (s: string)
    ensures |s| >= 1 && AllDigits(s)
    ensures |s| > 1 ==> s[0] != '0'
    decreases n
  {
    if n < 10 then [DigitChar(n)] else NatToString(n / 10) + [DigitChar(n % 10)]
  }

  /** The value of a string of decimal digits. */
  function ParseDigits(s: string): nat
    requires AllDigits(s)
  {
    if |s| == 0 then 0 else ParseDigits(s[..|s| - 1]) * 10 + DigitValue(s[|s| - 1])
  }

  lemma {:induction false} ParseNatToString(n: nat)
    ensures ParseDigits(NatToString(n)) == n
    decreases n
  {
    var s := NatToString(n);
    if n < 10 {
      assert s[..|s| - 1] == [];
    } else {
      var prefix := NatToString(n / 10);
      assert s == prefix + [DigitChar(n % 10)];
      assert s[..|s| - 1] == prefix;
      ParseNatToString(n / 10);
    }
  }

  /** Distinct numbers render as distinct texts. */
  lemma NatToStringInjective(m: nat, n: nat)
    requires NatToString(m) == NatToString(n)
    ensures m == n
  {
    ParseNatToString(m);
    ParseNatToString(n);
  }
}

=== FILE: wrappers.dfy ===
/** Option and Result, shared by the other modules. */
module Wrappers {

  /** A value that may be absent (JavaScript `undefined` / `null`). */
  datatype Option<+T> = None | Some(value: T)

  /** The outcome of a step that can go wrong. */
  datatype Result<+T, +E> = Ok(value: T) | Err(error: E)
}
